=== FILE: README.md ===
# NYC collisions dashboard: the schema normaliser and the panel computations

`app.py` is a Streamlit dashboard over the NYC "Motor Vehicle Collisions -
Crashes" table. This project models its core in Dafny:

- **`load_data`.** It reads a table whose column names are unknown and
  brings it to a standard schema in these steps:
  - canonicalises every column name;
  - finds the date and time columns and builds `datetime`;
  - finds the latitude/longitude columns and renames them;
  - finds the injury column, renames it `injured_persons`, coerces it to a
    number and fills gaps with 0;
  - renames the contributing-factor columns of vehicles 1 and 2 to their
    standard names;
  - drops the rows without both coordinates, then coerces the coordinates
    to numbers.
- **The panels that compute something from the result:**
  - the injury-threshold map filter;
  - the contributing-factor ranking (top fifteen without the
    "Unknown"/"Unspecified" labels) and its top-five comparison;
  - the hourly counts of the three most common factors.

## Layout

| file | module | contents |
|---|---|---|
| `wrappers.dfy` | `Wrappers` | `Option` and `Result` (with `:-`). |
| `names.dfy` | `Names` | Python's `in` on strings (`Contains`); the name canonicalisation of `app.py:20`. |
| `tables.dfy` | `Tables` | See below. |
| `detect.dfy` | `Detect` | See below. |
| `labels.dfy` | `Labels` | Facts about the standard labels (`datetime` holds none of the substrings the later scans look for). |
| `loader.dfy` | `Loader` | See below. |
| `properties.dfy` | `LoaderProperties` | The properties of a loaded table, step by step. |
| `panels.dfy` | `Panels` | `value_counts`, the three panels and the `hour` column. |

- **`Tables`**:
  - cells: missing, text, number, timestamp;
  - tables as a list of labels plus rows;
  - the pandas operations the loader uses: selecting a column by label, renaming, assigning a column, `dropna(subset=...)`.
- **`Detect`**:
  - the detection loops as methods with `while` loops;
  - each loop is proved against a recursive specification function:
    `FirstWith`, `InjuryIndex`, `FactorMap`.
- **`Loader`**:
  - `Normalise`: the whole load as a function of the raw table;
  - the class `Frame`: the data frame that `load_data` mutates, one method per step;
  - `LoadData`: runs the steps on a fresh `Frame` and is proved equal to `Normalise`.

**Pandas behaviour the model follows:**
- A label can name several columns.
- `data[label]` on a duplicated label yields a frame, not a series. `pd.to_numeric`, `pd.to_datetime` and `.dt` then raise. The model returns `Err(NotASeries(label))` there.
- The one exception is the `try` at `app.py:35-38`: there, a duplicated time label falls back to parsing the date alone.
- Renaming renames every column with the label.
- Assigning writes every column with the label, or appends a new column.

The parsers (`pd.to_numeric`, `pd.to_datetime`, `astype(str)`) are the function fields of a `Parsers` value. Every statement holds for all parsers.

### Behaviour worth knowing

- **Factor mapping.** The rename dictionary is keyed by the source column. Two sources of the same vehicle therefore both get the standard name, so the table ends up with two columns of that label (`FactorTargetsCollide`).
  - Also, `vehicle_10` contains `vehicle_1`, so it counts as vehicle 1.
- **Injury column.** With no column naming both "injured" and "person", the loop keeps the LAST column containing "injured" (`app.py:63-64`, `InjuryIndex`).
- **Unparsable coordinates.** Rows are dropped only when a coordinate is missing before coercion. Coercion happens after the drop, so a latitude that is present but not a number is kept and becomes missing (`UnparsableCoordinateKept`). Such a row is therefore in the loaded table, with a missing coordinate.
- **`datetime` is not always unique.** The step writes every column already labelled `datetime`, or appends one. So `datetime` is duplicated exactly when two canonical labels already are `datetime`, on either path (`DatetimeOccurrences`). When such a label is also the first containing "time", the combination raises and the date-only parse fills both (`DuplicateTimeLabelFallsBackToDate`).
- **`latitude` and `longitude`.** A single `latlon` column becomes `latitude`, and there is no `longitude`.
  - They are unique whenever both exist: otherwise the load fails (`LoadedLabelsUnique`).
  - `injured_persons` labels at most one column.
- **The `hour` column.** Panel 2 assigns `hour` at `app.py:160` whenever `datetime` exists, so the guarded assignment at `app.py:257-258` never finds `hour` missing while `datetime` exists. `AddHourColumn` models the assignment at line 160.
- **Factor-by-hour panel.** It ranks factors after filling missing cells with "Unknown", but filters the rows on the raw column. A missing factor therefore never matches, even when "Unknown" is a top-three factor (`MissingFactorsNotCharted`).

## Model

| member | source | states |
|---|---|---|
| Names.Canonicalise | app.py:20 | A canonical name holds only lowercase ASCII letters, digits and `_`, and is never longer than the original. |
| Names.CanonicaliseStrips | app.py:20 | Whitespace around a name is removed, not turned into `_`: padding a name with whitespace on either side leaves its canonical form unchanged. |
| Names.CanonicalFixed | app.py:20 | A name that is already canonical is returned unchanged. |
| Names.CanonicaliseIdempotent | app.py:20 | Canonicalising twice gives the same name as canonicalising once. |
| Names.CanonicaliseInterior | app.py:20 | Inside a name, a space becomes `_`, a word character is lowercased and any other character is deleted. The parts on either side are canonicalised independently. |
| Tables.Select | app.py:94-95 | Selecting a label succeeds exactly when it names one column and yields that column's cells. Otherwise the error names the label. |
| Tables.Assign | app.py:69 | Every column with the label gets the new values, or a column is appended. All other cells are unchanged. |
| Tables.RenameTable | app.py:53 | Renaming keeps every row as it was. |
| Tables.Rename | app.py:53 | Keeps the number of labels; a label that is a key becomes its target and a label that is not a key stays; every label afterwards is an untouched old label or a target. |
| Tables.KeepComplete | app.py:92 | Every kept row is an input row with a value in every listed column. |
| Tables.DropIncomplete | app.py:92 | The drop keeps the labels and leaves a well-formed table. |
| Tables.KeepCompleteMember | app.py:92 | A row is kept exactly when it is an input row with all listed columns present. |
| Tables.KeepCompleteAppend | app.py:92 | The drop keeps rows in their original order: it distributes over concatenation. |
| Detect.FirstIndex | app.py:27-31 | Gives the first label containing the substring, or none exactly when no label contains it. |
| Detect.FirstWith | app.py:27-31 | The label found is one of the labels and contains the substring. |
| Detect.ScanFirstPair | app.py:25-31 | The single loop finds the first `date` label and the first `time` label independently. |
| Detect.LastIndex | app.py:63-64 | Gives the last label containing the substring, or none exactly when no label contains it. |
| Detect.FirstInjuredPersons | app.py:60-62 | Gives the first label with both "injured" and "person", or none when there is no such label. |
| Detect.InjuryIndex | app.py:58-64 | If a label contains both "injured" and "person", the first such label is chosen. Otherwise the last label containing "injured" is chosen, and none exactly when no label does. |
| Detect.ScanInjury | app.py:58-64 | The loop with its `break` returns the label `InjuryIndex` picks. |
| Detect.VehicleIndexFrom | app.py:76-77 | Gives the smallest i in 1..5 whose tag occurs in the name, or none exactly when no tag does. |
| Detect.VehicleIndex | app.py:76-77 | Gives the smallest i in 1..5 whose tag `vehicle_i` occurs in the label, or none exactly when no tag does. |
| Detect.FactorMap | app.py:72-83 | Maps exactly the factor labels of vehicle 1 or 2, each to the standard label of its own vehicle. No other target occurs. |
| Detect.ScanVehicle | app.py:76-83 | The inner loop with its `break` finds the smallest vehicle index whose tag occurs in the label. |
| Detect.ScanFactors | app.py:72-83 | The nested loop with its `break` builds exactly `FactorMap`. |
| Loader.AsText | app.py:36 | A missing cell prints as `nan` and text is kept as it is. |
| Loader.ToDatetime | app.py:38-40 | Parsing always yields a timestamp or a missing value, and keeps a timestamp as it is. |
| Loader.ToNumeric | app.py:94 | A number is kept; text becomes the parser's number, or missing when it does not parse; the result is always a number or missing. |
| Loader.FillZero | app.py:69 | A missing value becomes 0, every present value is kept, and the result is never missing. |
| Loader.FilledColumn | app.py:69 | After coercion and filling, every injury cell is a number. |
| Loader.DatetimeColumn | app.py:38-40 | Every parsed cell is a timestamp or missing, and timestamps are kept. |
| Loader.CombinedColumn | app.py:36 | Every combined parse is a timestamp or missing, one per row. |
| Loader.CombinedStamps | app.py:35-36 | The combination succeeds exactly when both labels are unique; otherwise the error names the date label if it is duplicated, else the time label. |
| Loader.DateOnlyStamps | app.py:37-40 | The date-only parse succeeds exactly when the date label is unique, and then holds each row's parse of its date cell; otherwise the error names the date label. |
| Loader.CanonicalNames | app.py:20 | There are as many labels as before; label i is the canonical form of the original label i, so every law proved of `Canonicalise` holds label by label, and every label is canonical. |
| Loader.AddDatetime | app.py:33-40 | When the `datetime` step succeeds, the table stays well formed and keeps its rows. |
| Loader.RenameCoordinates | app.py:51-55 | The coordinate renames keep every row. |
| Loader.FillInjuries | app.py:66-69 | When the injury step succeeds, the table stays well formed and keeps its rows. |
| Loader.RenameFactors | app.py:85-87 | The factor renames keep every row. |
| Loader.DropMissingCoordinates | app.py:90-95 | When the drop succeeds, the table stays well formed. |
| Loader.Normalise | app.py:12-98 | A successful load yields a well-formed table. |
| Loader.Frame.constructor | app.py:14 | The frame starts as the raw table. |
| Loader.Frame.CanonicaliseColumns | app.py:20 | Replaces the labels by their canonical forms and keeps the rows. |
| Loader.Frame.Rename | app.py:53 | The frame becomes the renamed table. |
| Loader.Frame.Set | app.py:69 | The frame becomes the table with the column assigned. |
| Loader.Frame.DropNa | app.py:92 | The frame becomes the table without incomplete rows. |
| Loader.Frame.AddDatetimeColumn | app.py:24-40 | Fails exactly when the `datetime` step fails, with its error and the frame unchanged. Otherwise the frame becomes that step's table. |
| Loader.Frame.RenameCoordinateColumns | app.py:42-55 | The frame becomes the table with the first `lat` and `lon` labels renamed. |
| Loader.Frame.FillInjuryColumn | app.py:57-69 | Fails exactly when the injury step fails. Otherwise the frame becomes the table with `injured_persons` filled. |
| Loader.Frame.RenameFactorColumns | app.py:71-87 | The frame becomes the table renamed by `FactorMap`. |
| Loader.Frame.DropMissingCoordinateRows | app.py:90-95 | With both coordinate labels present, fails exactly when either is duplicated; with either absent, the frame is untouched. Otherwise the frame becomes the dropped and coerced table. |
| Loader.LoadData | app.py:12-98 | The step-by-step load fails exactly when `Normalise` does, with the same error. Otherwise it returns a fresh frame holding `Normalise`'s table. |
| LoaderProperties.RenameOccurrences | app.py:87 | Renaming leaves alone the number of columns with a label that is neither renamed nor a target. |
| LoaderProperties.DatetimeIffDateColumn | app.py:33-40 | A loaded table has a `datetime` column exactly when some canonical label contains "date". A time column alone never produces one. |
| LoaderProperties.DatetimeValues | app.py:34-40 | A duplicated date label makes the load fail. Otherwise each `datetime` cell is one of two parses: of "date time" when there is a unique time column, or of the date alone when there is no time column or its label is duplicated. |
| LoaderProperties.DatetimeOccurrences | app.py:33-40 | Without a date label the table is kept. Otherwise, on success, `datetime` labels one column when no column had it, and as many as already had it otherwise. |
| LoaderProperties.DuplicateTimeLabelFallsBackToDate | app.py:35-38 | When the time label is `datetime` itself and labels two columns, the combination raises. The date alone is parsed instead and written into both `datetime` columns. |
| LoaderProperties.CoordinateRenames | app.py:43-55 | Position by position: the first `lat` label becomes `latitude`. Otherwise the first `lon` label becomes `longitude`. Every other label and the column order stay unchanged. |
| LoaderProperties.InjuryValues | app.py:58-69 | Without an injury label the table is kept. Otherwise the chosen label becomes `injured_persons`; the step fails when that label then names several columns. Else the chosen column holds each row's coerced count with missing as 0, and every other cell is unchanged. |
| LoaderProperties.InjuryStepFills | app.py:66-69 | After the injury step, every `injured_persons` cell is a number. |
| LoaderProperties.RenameKeepsNumbers | app.py:87 | A rename that neither moves nor targets a label keeps that label's columns all-numeric. |
| LoaderProperties.AssignKeepsNumbers | app.py:94-95 | Assigning one label keeps the columns of every other label all-numeric. |
| LoaderProperties.DropKeepsNumbers | app.py:91-95 | The coordinate drop keeps any non-coordinate column that holds only numbers holding only numbers. |
| LoaderProperties.InjuriesNeverMissing | app.py:57-69 | In every loaded table, every `injured_persons` cell is a number, never missing. |
| LoaderProperties.FactorRenames | app.py:72-87 | Position by position: a factor label of vehicle 1 or 2 becomes that vehicle's standard label. Every other label is unchanged. Only vehicles 1 and 2 appear in targets. |
| LoaderProperties.FactorTargetsCollide | app.py:82-87 | Two factor labels of the same vehicle both become its standard label, giving a duplicated label. |
| LoaderProperties.CoordinateDrop | app.py:90-95 | Without both coordinates, the table is untouched. With both unique, the kept rows are the complete ones, coordinates are coerced and other cells kept. A duplicated coordinate label fails. |
| LoaderProperties.UnparsableCoordinateKept | app.py:92-95 | A row whose latitude text is not a number survives the drop with a missing latitude. |
| LoaderProperties.FactorsKeepInjuryCount | app.py:85-87 | The factor renames neither add nor remove an `injured_persons` column. |
| LoaderProperties.DropUnique | app.py:90-95 | A successful coordinate step keeps the labels, and both coordinates are unique when both are present. |
| LoaderProperties.LoadedLabelsUnique | app.py:66-95 | In a loaded table, `injured_persons` labels at most one column. `latitude` and `longitude` label exactly one each when both are present. |
| Panels.Count | app.py:194 | A value's count never exceeds the column length. |
| Panels.CountMember | app.py:194 | A value is counted at least once exactly when it occurs. |
| Panels.Distinct | app.py:194 | Lists each present value exactly once. |
| Panels.Insert | app.py:194 | Insertion adds exactly the new tally. |
| Panels.InsertSorted | app.py:194 | Insertion keeps the tallies in non-increasing count order. |
| Panels.InsertDistinct | app.py:194 | Inserting a new value keeps the values distinct. |
| Panels.SortByCount | app.py:194 | The sort is a permutation of the tallies. |
| Panels.SortSorted | app.py:194 | The sorted tallies have non-increasing counts. |
| Panels.SortDistinct | app.py:194 | Sorting keeps distinct values distinct. |
| Panels.ValueCounts | app.py:194 | `value_counts` is a reordering of the tallies and has no more entries than the column has cells. |
| Panels.ValueCountsSorted | app.py:194 | `value_counts` lists distinct values in non-increasing count order. |
| Panels.ValueCountsExact | app.py:194 | Each listed value is present, with the exact number of cells holding it. |
| Panels.ValueCountsComplete | app.py:194 | Every present value is listed. |
| Panels.ValueCountsSpec | app.py:194 | `value_counts` lists every present value exactly once, with its exact count, in non-increasing count order. |
| Panels.TopCountsSpec | app.py:194 | `head(n)` keeps at most n exact tallies, most frequent first. A value left out is no more frequent than any value shown. Values are left out only when all n places are taken. |
| Panels.TopCounts | app.py:194 | `head(n)` keeps at most n tallies. |
| Panels.TopCountsOmitted | app.py:194 | A present value left out of `head(n)` is no more frequent than any value shown, and all n places are taken. |
| Panels.TopCountsFirst | app.py:194 | The first entry of a non-empty head is at least as frequent as any present value. |
| Panels.FactorChoices | app.py:175-183 | Offers exactly the standard factor labels present, vehicle 1 first. |
| Panels.TargetHasFactorPrefix | app.py:175 | Every standard factor label passes the gate of the factor panel. |
| Panels.CleanFactor | app.py:191 | A cleaned factor is never missing or empty, and other values are kept. |
| Panels.CleanFactors | app.py:191 | No cleaned cell is missing or empty, and every other cell is kept. |
| Panels.CleanFactorCounts | app.py:191 | "Unknown" gains the missing cells and "Unspecified" the empty ones. Every other value keeps its count. |
| Panels.Unhidden | app.py:198 | Dropping the hidden labels never lengthens the list. |
| Panels.UnhiddenMember | app.py:198 | A tally survives exactly when it was there and its value is not a hidden label. |
| Panels.UnhiddenOrder | app.py:198 | Dropping the hidden labels keeps the count order and the distinctness of what remains. |
| Panels.FactorRanking | app.py:191-198 | The bar chart ranks at most fifteen factors. |
| Panels.FactorRankingExact | app.py:191-198 | At most 15 factors, most frequent first, distinct, none hidden, missing or empty, each with its exact count. |
| Panels.FactorRankingOmitted | app.py:194-198 | A visible factor left out is no more frequent than any factor shown. |
| Panels.FactorRankingShows | app.py:194-198 | The ranking holds exactly the entries of the fifteen-row head whose label is not hidden. |
| Panels.FactorRankingSpec | app.py:191-198 | At most 15 factors, most frequent first, none hidden, missing or empty, each with its exact count. Exactly the visible entries of the fifteen-row head are shown, and a visible factor left out is no more frequent than any factor shown. |
| Panels.TopFive | app.py:215-216 | Each comparison table has at most five rows. |
| Panels.TopFiveLeadsRanking | app.py:213-218 | Each comparison table is the head of the same ranking, before the hidden labels are dropped, and each of its visible entries appears in the bar chart's ranking. |
| Panels.LoadedTableReady | app.py:111-116 | Every loaded table lets the panels select their columns as single series. |
| Panels.MissingColumns | app.py:124-131 | The warning lists exactly the absent map labels, in the order `injured_persons`, `latitude`, `longitude`, and is empty exactly when all three exist. |
| Panels.DrawnRows | app.py:116 | Lists, strictly increasing, exactly the indices of the rows with enough injuries and both coordinates. |
| Panels.PointsRows | app.py:116-121 | There is one point per drawn row, in row order: the i-th point is the location of the i-th drawn row. |
| Panels.Points | app.py:116 | At most one point per row. |
| Panels.PointsMember | app.py:116 | A location is drawn exactly when some row has enough injuries and both coordinates. |
| Panels.PointsThreshold | app.py:113-116 | Raising the threshold never adds a location and never grows the list. |
| Panels.MapPanel | app.py:111-131 | The missing-columns warning is given exactly when one of the three labels is absent. Otherwise the result is the points that pass the filter, at most one per row; an empty list stands for the no-data message of app.py:122-123. |
| Panels.MapPanelMember | app.py:111-116 | On the table, a location is drawn exactly when some row has at least k injured persons and both coordinates present. |
| Panels.MapPanelRows | app.py:111-121 | On the table, the points are the locations of the qualifying rows, one per row and in row order, so their number is the number of such rows. |
| Panels.MapPanelSpec | app.py:111-121 | On the table, a location is drawn exactly when some row has at least k injured persons and both coordinates present. The points are those rows' locations, one per row, in row order. |
| Panels.TimeFactorChoicesMember | app.py:250-251 | Panel 5 offers exactly the labels naming the factor of vehicle 1 or 2. |
| Panels.HourCell | app.py:160 | An hour is a number or missing. |
| Panels.HourColumn | app.py:160 | The hour column exists exactly when `datetime` is unique, and holds each row's hour. |
| Panels.AddHourColumn | app.py:159-160 | Fails, leaving the frame unchanged, exactly when `datetime` is duplicated. Otherwise assigns the hour column. |
| Panels.FillUnknown | app.py:262 | No cell is missing after filling, and every present cell is kept. |
| Panels.FillUnknownCounts | app.py:262 | "Unknown" gains exactly the missing cells, and every other value keeps its count. |
| Panels.GroupCounts | app.py:266-270 | Every group has a present hour, a present top factor and a positive count no larger than the number of rows; there are no more groups than rows. |
| Panels.GroupCountsSpec | app.py:266-270 | A group exists exactly when some row has that present hour and that top factor, and it counts exactly those rows. |
| Panels.TopThree | app.py:262 | At most three factors are kept. |
| Panels.TopThreeSpec | app.py:262 | At most three distinct factors, each present after filling. A factor left out is no more common after filling than any chosen one, and all three places are taken. |
| Panels.HourlyFactors | app.py:262-270 | Every charted group has a present hour and one of the top three factors, and there are no more groups than rows. |
| Panels.HourlyFactorsSpec | app.py:262-270 | A (hour, factor) point exists exactly when the factor is a top-three one, both cells are present and some row has them. It counts exactly those rows of the raw column. |
| Panels.MissingFactorsNotCharted | app.py:262-270 | Two missing factors make "Unknown" a top factor, yet no group is charted for it. |

## Left out

- Reading the CSV (`pd.read_csv`, `nrows`):
  - the raw table is an input;
  - the model does not reproduce read_csv's type inference;
  - cells are text, numbers or missing as given.
- The Streamlit page:
  - sidebar output, headers, messages and the checkbox;
  - charts and maps (`st.map`, Plotly);
  - the `@st.cache_data` memoisation.
- `pd.to_numeric`, `pd.to_datetime` and `astype(str)`:
  - these are abstract parameters;
  - their format inference is not modelled;
  - a timestamp is reduced to a day and an hour.
- Non-ASCII column names: `Canonicalise` requires ASCII names. Python's Unicode `lower`, `strip` and `\w` are not modelled.
- `ValueCounts`: equal counts are ordered by first appearance. The lemmas claim only non-increasing counts, not pandas' order among ties.
- `MapPanel`:
  - the slider range `0..int(max)` is not modelled; the threshold is any integer;
  - when every loaded injury count is 0, `st.slider(..., 0, 0, 1)` at `app.py:113` has a default above its maximum, which Streamlit rejects, stopping the page; the model draws the points for any threshold;
  - comparing a text injury count would raise in pandas;
  - the model counts such a cell as below every threshold, and loaded tables never have one (`InjuriesNeverMissing`);
  - on a loaded table with no rows (every row lacked a coordinate), `app.py:113` raises, because the maximum of an empty column is NaN and `int` of NaN fails, and the rest of the page is not drawn. `MapPanel` returns an empty list of points instead.
- The daily counts, the single-hour count and the hour histogram (`app.py:136-167`), the heatmap (`app.py:233-243`), the debug section and the raw-data sample: they only display data.
- The `date` column written at `app.py:139`: no modelled panel reads it.
- Duplicated factor or `hour` labels in a panel:
  - `FactorRanking`, `TopFive` and `HourlyFactors` take the selected column's cells;
  - a duplicated factor label (possible by `FactorTargetsCollide`) would make pandas count the rows of a frame, and a duplicated `hour` label would make `groupby` raise;
  - neither is modelled.
- `ToNumeric`: a timestamp cell yields a missing value, where pandas would give its nanoseconds. `read_csv` without date parsing never produces a timestamp cell, and the only column holding timestamps, `datetime`, is never coerced to a number.

=== FILE: detect.dfy ===
/**
 * The column-detection scans of the loader. Each scan is a loop over the
 * column labels in order; each is proved equal to a recursive specification
 * whose meaning (first match, last match, smallest vehicle index) is stated
 * in that function's own contract.
 */
module Detect {
  import opened Wrappers
  import opened Names

  /** Index of the first label containing `sub`, if any. */
  function FirstIndex(names: seq<string>, sub: string): (r: Option<nat>)
    ensures r.None? <==> forall i | 0 <= i < |names| :: !Contains(names[i], sub)
    ensures r.Some? ==> r.value < |names| && Contains(names[r.value], sub)
    ensures r.Some? ==> forall j | 0 <= j < r.value :: !Contains(names[j], sub)
  {
    if names == [] then None
    else if Contains(names[0], sub) then Some(0)
    else match FirstIndex(names[1..], sub)
      case None => None
      case Some(k) => Some(k + 1)
  }

  /** Index of the last label containing `sub`, if any. */
  function LastIndex(names: seq<string>, sub: string): (r: Option<nat>)
    ensures r.None? <==> forall i | 0 <= i < |names| :: !Contains(names[i], sub)
    ensures r.Some? ==> r.value < |names| && Contains(names[r.value], sub)
    ensures r.Some? ==> forall j | r.value < j < |names| :: !Contains(names[j], sub)
  {
    if names == [] then None
    else if Contains(names[|names| - 1], sub) then Some(|names| - 1)
    else LastIndex(names[..|names| - 1], sub)
  }

  function NameAt(names: seq<string>, i: Option<nat>): Option<string>
    requires i.Some? ==> i.value < |names|
  {
    if i.Some? then Some(names[i.value]) else None
  }

  /** The first label containing `sub`. */
  function FirstWith(names: seq<string>, sub: string): (r: Option<string>)
    ensures r.Some? ==> r.value in names && Contains(r.value, sub)
  {
    NameAt(names, FirstIndex(names, sub))
  }

  lemma {:induction false} FirstIndexSnoc(names: seq<string>, x: string, sub: string)
    ensures FirstIndex(names + [x], sub) ==
      if FirstIndex(names, sub).Some? then FirstIndex(names, sub)
      else if Contains(x, sub) then Some(|names|) else None
  {
    var r := FirstIndex(names + [x], sub);
    var s := names + [x];
    assert forall i | 0 <= i < |names| :: s[i] == names[i];
    if FirstIndex(names, sub).Some? {
      var k := FirstIndex(names, sub).value;
      assert s[k] == names[k];
    } else if Contains(x, sub) {
      assert s[|names|] == x;
    }
  }

  lemma FirstWithSnoc(names: seq<string>, x: string, sub: string)
    ensures FirstWith(names + [x], sub) ==
      if FirstWith(names, sub).Some? then FirstWith(names, sub)
      else if Contains(x, sub) then Some(x) else None
  {
    FirstIndexSnoc(names, x, sub);
    var s := names + [x];
    if FirstIndex(names, sub).Some? {
      assert s[FirstIndex(names, sub).value] == names[FirstIndex(names, sub).value];
    }
  }

  /**
   * The loop shared by the date/time scan (over "date" and "time") and the
   * latitude/longitude scan (over "lat" and "lon"): one pass that remembers,
   * for each of two substrings, the first label containing it. Python's
   * `not date_col` is `None?` here, since a remembered label is never empty.
   */
  method ScanFirstPair(cols: seq<string>, a: string, b: string) returns (colA: Option<string>, colB: Option<string>)
    ensures colA == FirstWith(cols, a)
    ensures colB == FirstWith(cols, b)
  {
    colA, colB := None, None;
    var i := 0;
    while i < |cols|
      invariant 0 <= i <= |cols|
      invariant colA == FirstWith(cols[..i], a)
      invariant colB == FirstWith(cols[..i], b)
    {
      var col := cols[i];
      assert cols[..i + 1] == cols[..i] + [col];
      FirstWithSnoc(cols[..i], col, a);
      FirstWithSnoc(cols[..i], col, b);
      if Contains(col, a) && colA.None? {
        colA := Some(col);
      }
      if Contains(col, b) && colB.None? {
        colB := Some(col);
      }
      i := i + 1;
    }
    assert cols[..i] == cols;
  }

  /** A label naming the injured-persons count outright. */
  predicate NamesInjuredPersons(name: string) {
    Contains(name, "injured") && Contains(name, "person")
  }

  /** Index of the first label containing both "injured" and "person". */
  function FirstInjuredPersons(names: seq<string>): (r: Option<nat>)
    ensures r.None? <==> forall i | 0 <= i < |names| :: !NamesInjuredPersons(names[i])
    ensures r.Some? ==> r.value < |names| && NamesInjuredPersons(names[r.value])
    ensures r.Some? ==> forall j | 0 <= j < r.value :: !NamesInjuredPersons(names[j])
  {
    if names == [] then None
    else if NamesInjuredPersons(names[0]) then Some(0)
    else match FirstInjuredPersons(names[1..])
      case None => None
      case Some(k) => Some(k + 1)
  }

  /**
   * The injury column the loader picks: the first label containing both
   * "injured" and "person" when there is one, and otherwise the LAST label
   * containing "injured" (the loop keeps overwriting its choice).
   */
  function InjuryIndex(names: seq<string>): (r: Option<nat>)
    ensures r.Some? ==> r.value < |names| && Contains(names[r.value], "injured")
    ensures r.None? <==> forall i | 0 <= i < |names| :: !Contains(names[i], "injured")
    ensures (exists i | 0 <= i < |names| :: NamesInjuredPersons(names[i])) ==>
      && r.Some? && NamesInjuredPersons(names[r.value])
      && forall j | 0 <= j < r.value :: !NamesInjuredPersons(names[j])
    ensures (forall i | 0 <= i < |names| :: !NamesInjuredPersons(names[i])) && r.Some? ==>
      forall j | r.value < j < |names| :: !Contains(names[j], "injured")
  {
    if FirstInjuredPersons(names).Some? then FirstInjuredPersons(names)
    else LastIndex(names, "injured")
  }

  /** The injury scan, with its early `break`. */
  method ScanInjury(cols: seq<string>) returns (col: Option<string>)
    ensures col == NameAt(cols, InjuryIndex(cols))
  {
    col := None;
    var i := 0;
    while i < |cols|
      invariant 0 <= i <= |cols|
      invariant forall j | 0 <= j < i :: !NamesInjuredPersons(cols[j])
      invariant col == NameAt(cols, LastIndex(cols[..i], "injured"))
    {
      var c := cols[i];
      assert cols[..i + 1][..i] == cols[..i];
      if Contains(c, "injured") && Contains(c, "person") {
        col := Some(c);
        break;
      }
      if Contains(c, "injured") {
        col := Some(c);
      }
      i := i + 1;
    }
    if i == |cols| {
      assert cols[..i] == cols;
    }
  }

  /** The substring that marks vehicle `i`: "vehicle_1" .. "vehicle_5". */
  function VehicleTag(i: nat): (tag: string)
    requires 1 <= i <= 5
    ensures |tag| == 9
  {
    "vehicle_" + [('0' as int + i) as char]
  }

  /** The smallest vehicle index in `i`..5 whose tag occurs in `name`. */
  function VehicleIndexFrom(name: string, i: nat): (r: Option<nat>)
    requires 1 <= i <= 6
    decreases 6 - i
    ensures r.Some? ==> i <= r.value <= 5 && Contains(name, VehicleTag(r.value))
    ensures r.Some? ==> forall j | i <= j < r.value :: !Contains(name, VehicleTag(j))
    ensures r.None? <==> forall j | i <= j <= 5 :: !Contains(name, VehicleTag(j))
  {
    if i == 6 then None
    else if Contains(name, VehicleTag(i)) then Some(i)
    else VehicleIndexFrom(name, i + 1)
  }

  /** The vehicle a factor label belongs to: the smallest i in 1..5 with "vehicle_i" in it. */
  function VehicleIndex(name: string): (r: Option<nat>)
    ensures r.Some? ==> 1 <= r.value <= 5 && Contains(name, VehicleTag(r.value))
    ensures r.Some? ==> forall j | 1 <= j < r.value :: !Contains(name, VehicleTag(j))
    ensures r.None? <==> forall j | 1 <= j <= 5 :: !Contains(name, VehicleTag(j))
  {
    VehicleIndexFrom(name, 1)
  }

  /** `f'contributing_factor_vehicle_{i}'` */
  function FactorTarget(i: nat): (target: string)
    requires 1 <= i <= 5
    ensures |target| == 29
  {
    "contributing_factor_" + VehicleTag(i)
  }

  /** A label the factor scan renames: a contributing factor of vehicle 1 or 2. */
  predicate IsFactorSource(name: string) {
    Contains(name, "contributing_factor") && (VehicleIndex(name) == Some(1) || VehicleIndex(name) == Some(2))
  }

  /**
   * The rename mapping the factor scan builds, keyed by source label: each
   * factor label of vehicle 1 or 2 maps to the standard name of its vehicle.
   */
  function FactorMap(names: seq<string>): (m: map<string, string>)
    ensures forall n :: n in m <==> n in names && IsFactorSource(n)
    ensures forall n | n in m :: IsFactorSource(n) && m[n] == FactorTarget(VehicleIndex(n).value)
    ensures forall n | n in m :: m[n] in {FactorTarget(1), FactorTarget(2)}
  {
    if names == [] then map[]
    else
      var last := names[|names| - 1];
      var front := FactorMap(names[..|names| - 1]);
      assert forall n :: n in names <==> n in names[..|names| - 1] || n == last;
      if IsFactorSource(last) then front[last := FactorTarget(VehicleIndex(last).value)]
      else front
  }

  /** `sub` followed by more text is found only where `sub` itself is. */
  lemma {:induction false} ContainsLonger(s: string, sub: string, more: string)
    requires Contains(s, sub + more)
    ensures Contains(s, sub)
  {
    if StartsWith(s, sub + more) {
      assert s[..|sub|] == (sub + more)[..|sub|];
    } else {
      ContainsLonger(s[1..], sub, more);
    }
  }

  /** The inner loop of the factor scan: tries vehicles 1..5 and stops at the first tag found. */
  method ScanVehicle(col: string) returns (vehicle: Option<nat>)
    ensures vehicle == VehicleIndex(col)
  {
    vehicle := None;
    var i := 1;
    while i < 6
      invariant 1 <= i <= 6
      invariant VehicleIndex(col) == VehicleIndexFrom(col, i)
    {
      if Contains(col, VehicleTag(i)) || Contains(col, VehicleTag(i) + "_") {
        if !Contains(col, VehicleTag(i)) {
          ContainsLonger(col, VehicleTag(i), "_");
        }
        vehicle := Some(i);
        break;
      }
      i := i + 1;
    }
  }

  /** The factor scan: an outer loop over labels, recording the vehicle 1 and 2 factors. */
  method ScanFactors(cols: seq<string>) returns (mapping: map<string, string>)
    ensures mapping == FactorMap(cols)
  {
    mapping := map[];
    var k := 0;
    while k < |cols|
      invariant 0 <= k <= |cols|
      invariant mapping == FactorMap(cols[..k])
    {
      var col := cols[k];
      assert cols[..k + 1][..k] == cols[..k];
      if Contains(col, "contributing_factor") {
        var vehicle := ScanVehicle(col);
        if vehicle == Some(1) || vehicle == Some(2) {
          mapping := mapping[col := FactorTarget(vehicle.value)];
        }
      }
      k := k + 1;
    }
    assert cols[..k] == cols;
  }
}

=== FILE: labels.dfy ===
/**
 * Facts about the fixed labels the loader writes (`datetime`, `latitude`,
 * `injured_persons`): which detection substrings they contain and which
 * other labels they differ from. Kept apart so that each is checked in a
 * small context.
 */
module Labels {
  import opened Names
  import opened Detect

  lemma DatetimeSubstrings()
    ensures !Contains("datetime", "lat") && !Contains("datetime", "lon")
    ensures !Contains("datetime", "injured") && !Contains("datetime", "contributing_factor")
    ensures Contains("datetime", "date")
  {
    CoordinateSubstrings();
    DatetimeLacksInjured();
    DatetimeLacksFactor();
    assert StartsWith("datetime", "date");
  }

  /** No label the loader writes for a date or a latitude is taken for the longitude, or a date for the latitude. */
  lemma CoordinateSubstrings()
    ensures !Contains("datetime", "lat") && !Contains("datetime", "lon")
    ensures !Contains("latitude", "lon")
  {
    NotContainsMissingChar("datetime", "lat", 0);
    NotContainsMissingChar("datetime", "lon", 0);
    NotContainsMissingChar("latitude", "lon", 1);
  }

  lemma DatetimeLacksInjured() ensures !Contains("datetime", "injured") {
    NotContainsMissingChar("datetime", "injured", 1);
  }

  lemma DatetimeLacksFactor() ensures !Contains("datetime", "contributing_factor") {
    NotContainsMissingChar("datetime", "contributing_factor", 0);
  }

  lemma DatetimeDiffers()
    ensures "datetime" != "latitude" && "datetime" != "longitude" && "datetime" != "injured_persons"
    ensures "datetime" != FactorTarget(1) && "datetime" != FactorTarget(2)
  {
    assert "datetime"[0] != "latitude"[0];
    assert |"datetime"| == 8 && |"longitude"| == 9 && |"injured_persons"| == 15;
    assert |FactorTarget(1)| == |FactorTarget(2)| == 29;
  }

  lemma InjuryLabels()
    ensures Contains("injured_persons", "injured")
    ensures !Contains("injured_persons", "contributing_factor")
    ensures "injured_persons" != FactorTarget(1) && "injured_persons" != FactorTarget(2)
  {
    assert |"injured_persons"| == 15 && |FactorTarget(1)| == |FactorTarget(2)| == 29;
    InjuryLabelSubstrings();
  }

  lemma InjuryLabelSubstrings()
    ensures Contains("injured_persons", "injured")
    ensures !Contains("injured_persons", "contributing_factor")
  {
    assert StartsWith("injured_persons", "injured");
    NotContainsMissingChar("injured_persons", "contributing_factor", 0);
  }
}

=== FILE: loader.dfy ===
/**
 * The schema normaliser run when the collision table is loaded: canonical
 * column names, the derived `datetime` column, the `latitude`/`longitude`,
 * `injured_persons` and `contributing_factor_vehicle_1`/`_2` renames, the
 * injury fill and the drop of rows without coordinates.
 *
 * `Normalise` states the whole load as a function of the raw table; the
 * class `Frame` and the method `LoadData` perform it step by step on a
 * mutable frame, as the loader does, and are proved to agree with it.
 */
module Loader {
  import opened Wrappers
  import opened Names
  import opened Tables
  import opened Detect

  predicate AsciiNames(names: seq<string>) {
    forall i | 0 <= i < |names| :: IsAscii(names[i])
  }

  // ---------------------------------------------------------------- conversions

  /** `pd.to_numeric(errors='coerce')` on one cell: unparsable text becomes missing. */
  function ToNumeric(p: Parsers, c: Cell): (r: Cell)
    ensures r.Num? || r.Null?
    ensures c.Num? ==> r == c
    ensures c.Text? ==> r == if p.number(c.text).Some? then Num(p.number(c.text).value) else Null
  {
    match c
    case Text(s) => (match p.number(s) case Some(x) => Num(x) case None => Null)
    case Num(_) => c
    case _ => Null
  }

  /** `.fillna(0)` */
  function FillZero(c: Cell): (r: Cell)
    ensures r != Null
    ensures c == Null ==> r == Num(0.0)
    ensures c != Null ==> r == c
    ensures c.Num? || c.Null? ==> r.Num?
  {
    if c == Null then Num(0.0) else c
  }

  function StampCell(s: Option<Stamp>): (c: Cell)
    ensures c.Time? || c.Null?
  {
    if s.Some? then Time(s.value) else Null
  }

  /** `pd.to_datetime(errors='coerce')` on one cell. */
  function ToDatetime(p: Parsers, c: Cell): (r: Cell)
    ensures r.Time? || r.Null?
    ensures c.Time? ==> r == c
  {
    match c
    case Text(s) => StampCell(p.stamp(s))
    case Num(x) => StampCell(p.instant(x))
    case Time(_) => c
    case Null => Null
  }

  /** `astype(str)` on one cell; a missing value prints as "nan". */
  function AsText(p: Parsers, c: Cell): (s: string)
    ensures c.Null? ==> s == "nan"
    ensures c.Text? ==> s == c.text
  {
    match c
    case Null => "nan"
    case Text(s) => s
    case _ => p.render(c)
  }

  function NumericColumn(p: Parsers, col: seq<Cell>): (r: seq<Cell>)
    ensures |r| == |col|
  {
    seq(|col|, k requires 0 <= k < |col| => ToNumeric(p, col[k]))
  }

  function FilledColumn(p: Parsers, col: seq<Cell>): (r: seq<Cell>)
    ensures |r| == |col|
    ensures forall k | 0 <= k < |r| :: r[k].Num?
  {
    seq(|col|, k requires 0 <= k < |col| => FillZero(ToNumeric(p, col[k])))
  }

  function DatetimeColumn(p: Parsers, col: seq<Cell>): (r: seq<Cell>)
    ensures |r| == |col|
    ensures forall k | 0 <= k < |r| :: r[k].Time? || r[k].Null?
    ensures forall k | 0 <= k < |r| && col[k].Time? :: r[k] == col[k]
  {
    seq(|col|, k requires 0 <= k < |col| => ToDatetime(p, col[k]))
  }

  /** `pd.to_datetime(date.astype(str) + ' ' + time.astype(str), errors='coerce')` */
  function CombinedColumn(p: Parsers, dates: seq<Cell>, times: seq<Cell>): (r: seq<Cell>)
    requires |dates| == |times|
    ensures |r| == |dates|
    ensures forall k | 0 <= k < |r| :: r[k].Time? || r[k].Null?
  {
    var r := seq(|dates|, k requires 0 <= k < |dates| => StampCell(p.stamp(AsText(p, dates[k]) + " " + AsText(p, times[k]))));
    assert forall k | 0 <= k < |r| :: r[k] == StampCell(p.stamp(AsText(p, dates[k]) + " " + AsText(p, times[k])));
    r
  }

  // ---------------------------------------------------------------- the steps

  function CanonicalNames(names: seq<string>): (r: seq<string>)
    requires AsciiNames(names)
    ensures |r| == |names|
    ensures forall i | 0 <= i < |r| :: IsCanonical(r[i])
    ensures forall i | 0 <= i < |r| :: r[i] == Canonicalise(names[i])
  {
    seq(|names|, i requires 0 <= i < |names| => Canonicalise(names[i]))
  }

  /** The `try` of the date/time combination: fails when either label is duplicated. */
  function CombinedStamps(t: Table, p: Parsers, dateCol: string, timeCol: string): (r: Result<seq<Cell>, LoadError>)
    requires WellFormed(t) && dateCol in t.names && timeCol in t.names
    ensures r.Ok? <==> Occurrences(t.names, dateCol) == 1 && Occurrences(t.names, timeCol) == 1
    ensures r.Err? ==> r.error == NotASeries(if Occurrences(t.names, dateCol) != 1 then dateCol else timeCol)
    ensures r.Ok? ==> |r.value| == |t.rows|
  {
    var dates :- Select(t, dateCol);
    var times :- Select(t, timeCol);
    Ok(CombinedColumn(p, dates, times))
  }

  /** The date-only parse (the `except` branch and the date-only branch). */
  function DateOnlyStamps(t: Table, p: Parsers, dateCol: string): (r: Result<seq<Cell>, LoadError>)
    requires WellFormed(t) && dateCol in t.names
    ensures r.Ok? <==> Occurrences(t.names, dateCol) == 1
    ensures r.Err? ==> r.error == NotASeries(dateCol)
    ensures r.Ok? ==> |r.value| == |t.rows|
    ensures r.Ok? ==> forall k | 0 <= k < |t.rows| :: r.value[k] == ToDatetime(p, t.rows[k][IndexOf(t.names, dateCol)])
  {
    var dates :- Select(t, dateCol);
    Ok(DatetimeColumn(p, dates))
  }

  /** The `datetime` column: combined date and time, or the date alone, or nothing. */
  function AddDatetime(t: Table, p: Parsers, dateCol: Option<string>, timeCol: Option<string>): (r: Result<Table, LoadError>)
    requires WellFormed(t)
    requires dateCol.Some? ==> dateCol.value in t.names
    requires timeCol.Some? ==> timeCol.value in t.names
    ensures r.Ok? ==> WellFormed(r.value) && |r.value.rows| == |t.rows|
  {
    if dateCol.Some? && timeCol.Some? then
      var combined := CombinedStamps(t, p, dateCol.value, timeCol.value);
      if combined.Ok? then Ok(Assign(t, "datetime", combined.value))
      else
        var stamps :- DateOnlyStamps(t, p, dateCol.value);
        Ok(Assign(t, "datetime", stamps))
    else if dateCol.Some? then
      var stamps :- DateOnlyStamps(t, p, dateCol.value);
      Ok(Assign(t, "datetime", stamps))
    else
      Ok(t)
  }

  /** Rename the chosen latitude column, then the chosen longitude column. */
  function RenameCoordinates(t: Table, latCol: Option<string>, lonCol: Option<string>): (r: Table)
    requires WellFormed(t)
    ensures WellFormed(r) && r.rows == t.rows
  {
    var t1 := if latCol.Some? then RenameTable(t, map[latCol.value := "latitude"]) else t;
    if lonCol.Some? then RenameTable(t1, map[lonCol.value := "longitude"]) else t1
  }

  /** Rename the chosen injury column and replace it by its numeric value with missing as 0. */
  function FillInjuries(t: Table, p: Parsers, injuryCol: Option<string>): (r: Result<Table, LoadError>)
    requires WellFormed(t)
    requires injuryCol.Some? ==> injuryCol.value in t.names
    ensures r.Ok? ==> WellFormed(r.value) && |r.value.rows| == |t.rows|
  {
    if injuryCol.None? then Ok(t)
    else
      var t1 := RenameTable(t, map[injuryCol.value := "injured_persons"]);
      assert t1.names[IndexOf(t.names, injuryCol.value)] == "injured_persons";
      var counts :- Select(t1, "injured_persons");
      Ok(Assign(t1, "injured_persons", FilledColumn(p, counts)))
  }

  function RenameFactors(t: Table, mapping: map<string, string>): (r: Table)
    requires WellFormed(t)
    ensures WellFormed(r) && r.rows == t.rows
  {
    if mapping != map[] then RenameTable(t, mapping) else t
  }

  const Coordinates: set<string> := {"latitude", "longitude"}

  /** Drop rows missing a coordinate, then coerce both coordinates to numbers. */
  function DropMissingCoordinates(t: Table, p: Parsers): (r: Result<Table, LoadError>)
    requires WellFormed(t)
    ensures r.Ok? ==> WellFormed(r.value)
  {
    if "latitude" in t.names && "longitude" in t.names then
      var t1 := DropIncomplete(t, Coordinates);
      var lats :- Select(t1, "latitude");
      var t2 := Assign(t1, "latitude", NumericColumn(p, lats));
      var lons :- Select(t2, "longitude");
      Ok(Assign(t2, "longitude", NumericColumn(p, lons)))
    else
      Ok(t)
  }

  /** The whole load, from the raw table (every header ASCII) to the normalised table. */
  function Normalise(raw: Table, p: Parsers): (r: Result<Table, LoadError>)
    requires WellFormed(raw) && AsciiNames(raw.names)
    ensures r.Ok? ==> WellFormed(r.value)
  {
    var t0 := Table(CanonicalNames(raw.names), raw.rows);
    var t1 :- AddDatetime(t0, p, FirstWith(t0.names, "date"), FirstWith(t0.names, "time"));
    var t2 := RenameCoordinates(t1, FirstWith(t1.names, "lat"), FirstWith(t1.names, "lon"));
    var t3 :- FillInjuries(t2, p, NameAt(t2.names, InjuryIndex(t2.names)));
    var t4 := RenameFactors(t3, FactorMap(t3.names));
    DropMissingCoordinates(t4, p)
  }

  // ---------------------------------------------------------------- the frame

  /** The loader's data frame, updated in place. */
  class Frame {
    var names: seq<string>
    var rows: seq<seq<Cell>>

    function Value(): Table
      reads this
    {
      Table(names, rows)
    }

    predicate Valid()
      reads this
    {
      WellFormed(Value())
    }

    /** `pd.read_csv`: the frame starts as the raw table. */
    constructor (raw: Table)
      requires WellFormed(raw)
      ensures Valid() && Value() == raw
    {
      names := raw.names;
      rows := raw.rows;
    }

    /** `data.columns = data.columns.str.strip()...` */
    method CanonicaliseColumns()
      requires Valid() && AsciiNames(names)
      modifies this
      ensures Valid() && names == CanonicalNames(old(names)) && rows == old(rows)
    {
      names := CanonicalNames(names);
    }

    /** `data = data.rename(columns=mapping)` */
    method Rename(mapping: map<string, string>)
      requires Valid()
      modifies this
      ensures Valid() && Value() == RenameTable(old(Value()), mapping)
    {
      names := Tables.Rename(names, mapping);
    }

    /** `data[key] = values` */
    method Set(key: string, values: seq<Cell>)
      requires Valid() && |values| == |rows|
      modifies this
      ensures Valid() && Value() == Assign(old(Value()), key, values)
    {
      var t := Assign(Value(), key, values);
      names, rows := t.names, t.rows;
    }

    /** `data = data.dropna(subset=...)` */
    method DropNa(subset: set<string>)
      requires Valid()
      modifies this
      ensures Valid() && Value() == DropIncomplete(old(Value()), subset)
    {
      rows := KeepComplete(names, rows, subset);
    }

    /** The date/time scan and the `datetime` column. */
    method AddDatetimeColumn(p: Parsers) returns (failure: Option<LoadError>)
      requires Valid()
      modifies this
      ensures Valid()
      ensures var r := AddDatetime(old(Value()), p, FirstWith(old(names), "date"), FirstWith(old(names), "time"));
        (failure.None? <==> r.Ok?) && (r.Ok? ==> Value() == r.value) && (r.Err? ==> failure.value == r.error)
      ensures failure.Some? ==> Value() == old(Value())
    {
      var dateCol, timeCol := ScanFirstPair(names, "date", "time");
      ghost var t := Value();
      failure := None;
      if dateCol.Some? && timeCol.Some? {
        var combined := CombinedStamps(Value(), p, dateCol.value, timeCol.value);
        if combined.Ok? {
          Set("datetime", combined.value);
        } else {
          var stamps := DateOnlyStamps(Value(), p, dateCol.value);
          if stamps.Err? {
            return Some(stamps.error);
          }
          Set("datetime", stamps.value);
        }
      } else if dateCol.Some? {
        var stamps := DateOnlyStamps(Value(), p, dateCol.value);
        if stamps.Err? {
          return Some(stamps.error);
        }
        Set("datetime", stamps.value);
      }
    }

    /** The latitude/longitude scan and the two renames. */
    method RenameCoordinateColumns()
      requires Valid()
      modifies this
      ensures Valid()
      ensures Value() == RenameCoordinates(old(Value()), FirstWith(old(names), "lat"), FirstWith(old(names), "lon"))
    {
      var latCol, lonCol := ScanFirstPair(names, "lat", "lon");
      if latCol.Some? {
        Rename(map[latCol.value := "latitude"]);
      }
      if lonCol.Some? {
        Rename(map[lonCol.value := "longitude"]);
      }
    }

    /** The injury scan, the rename to `injured_persons` and the fill. */
    method FillInjuryColumn(p: Parsers) returns (failure: Option<LoadError>)
      requires Valid()
      modifies this
      ensures Valid()
      ensures var r := FillInjuries(old(Value()), p, NameAt(old(names), InjuryIndex(old(names))));
        (failure.None? <==> r.Ok?) && (r.Ok? ==> Value() == r.value) && (r.Err? ==> failure.value == r.error)
    {
      var injuryCol := ScanInjury(names);
      failure := None;
      if injuryCol.Some? {
        ghost var before := names;
        Rename(map[injuryCol.value := "injured_persons"]);
        assert names[IndexOf(before, injuryCol.value)] == "injured_persons";
        var counts := Select(Value(), "injured_persons");
        if counts.Err? {
          return Some(counts.error);
        }
        Set("injured_persons", FilledColumn(p, counts.value));
      }
    }

    /** The factor scan and the rename it builds. */
    method RenameFactorColumns()
      requires Valid()
      modifies this
      ensures Valid()
      ensures Value() == RenameFactors(old(Value()), FactorMap(old(names)))
    {
      var factorColumns := ScanFactors(names);
      if factorColumns != map[] {
        Rename(factorColumns);
      }
    }

    /** The coordinate drop and the coercion that follows it. */
    method DropMissingCoordinateRows(p: Parsers) returns (failure: Option<LoadError>)
      requires Valid()
      modifies this
      ensures Valid()
      ensures var r := DropMissingCoordinates(old(Value()), p);
        (failure.None? <==> r.Ok?) && (r.Ok? ==> Value() == r.value) && (r.Err? ==> failure.value == r.error)
    {
      failure := None;
      if "latitude" in names && "longitude" in names {
        DropNa(Coordinates);
        var lats := Select(Value(), "latitude");
        if lats.Err? {
          return Some(lats.error);
        }
        Set("latitude", NumericColumn(p, lats.value));
        var lons := Select(Value(), "longitude");
        if lons.Err? {
          return Some(lons.error);
        }
        Set("longitude", NumericColumn(p, lons.value));
      }
    }
  }

  /** `load_data`: every step applied in order to a fresh frame. */
  method LoadData(raw: Table, p: Parsers) returns (r: Result<Frame, LoadError>)
    requires WellFormed(raw) && AsciiNames(raw.names)
    ensures r.Ok? <==> Normalise(raw, p).Ok?
    ensures r.Err? ==> r.error == Normalise(raw, p).error
    ensures r.Ok? ==> fresh(r.value) && r.value.Valid() && r.value.Value() == Normalise(raw, p).value
  {
    var data := new Frame(raw);
    data.CanonicaliseColumns();
    var failure := data.AddDatetimeColumn(p);
    if failure.Some? {
      return Err(failure.value);
    }
    data.RenameCoordinateColumns();
    failure := data.FillInjuryColumn(p);
    if failure.Some? {
      return Err(failure.value);
    }
    data.RenameFactorColumns();
    failure := data.DropMissingCoordinateRows(p);
    if failure.Some? {
      return Err(failure.value);
    }
    return Ok(data);
  }
}

=== FILE: names.dfy ===
/**
 * Column-name text handling: substring tests and the canonicalisation chain
 * `str.strip().str.lower().str.replace(' ', '_').str.replace(r'[^\w]', '')`
 * applied to every column name when the collision table is loaded.
 * Names are restricted to ASCII; on ASCII, Python's `lower()` and the regex
 * class `\w` are the character-wise rules written out below.
 */
module Names {

  predicate StartsWith(s: string, prefix: string) {
    |prefix| <= |s| && s[..|prefix|] == prefix
  }

  /** Python's `sub in s`. */
  predicate Contains(s: string, sub: string)
    decreases |s|
  {
    StartsWith(s, sub) || (|s| > 0 && Contains(s[1..], sub))
  }

  predicate IsAscii(s: string) {
    forall i | 0 <= i < |s| :: s[i] as int < 128
  }

  /** ASCII characters for which Python's `str.isspace()` holds, the set `strip()` removes. */
  predicate IsWhitespace(c: char) {
    c == ' ' || 9 <= c as int <= 13 || 28 <= c as int <= 31
  }

  /** The ASCII part of the regex class `\w`. */
  predicate IsWordChar(c: char) {
    'a' <= c <= 'z' || 'A' <= c <= 'Z' || '0' <= c <= '9' || c == '_'
  }

  /** A character a canonical name may hold: lower-case letter, digit or underscore. */
  predicate IsCanonicalChar(c: char) {
    'a' <= c <= 'z' || '0' <= c <= '9' || c == '_'
  }

  predicate IsCanonical(s: string) {
    forall i | 0 <= i < |s| :: IsCanonicalChar(s[i])
  }

  function TrimLeft(s: string): string {
    if |s| > 0 && IsWhitespace(s[0]) then TrimLeft(s[1..]) else s
  }

  function TrimRight(s: string): string {
    if |s| > 0 && IsWhitespace(s[|s| - 1]) then TrimRight(s[..|s| - 1]) else s
  }

  /** `str.strip()` */
  function Strip(s: string): string {
    TrimRight(TrimLeft(s))
  }

  function LowerChar(c: char): char {
    if 'A' <= c <= 'Z' then (c as int + 32) as char else c
  }

  /** `str.lower()` on ASCII */
  function Lower(s: string): (r: string)
    ensures |r| == |s|
  {
    seq(|s|, i requires 0 <= i < |s| => LowerChar(s[i]))
  }

  /** `str.replace(' ', '_')` */
  function SpacesToUnderscores(s: string): (r: string)
    ensures |r| == |s|
  {
    seq(|s|, i requires 0 <= i < |s| => if s[i] == ' ' then '_' else s[i])
  }

  /** `str.replace(r'[^\w]', '', regex=True)`: every non-word character is deleted. */
  function DeleteNonWord(s: string): (r: string)
    ensures |r| <= |s|
    ensures forall i | 0 <= i < |r| :: IsWordChar(r[i]) && r[i] in s
  {
    if s == [] then []
    else if IsWordChar(s[0]) then [s[0]] + DeleteNonWord(s[1..])
    else DeleteNonWord(s[1..])
  }

  /** The three character-wise steps that follow `strip()`. */
  function Clean(s: string): string {
    DeleteNonWord(SpacesToUnderscores(Lower(s)))
  }

  /** The column-name canonicalisation. */
  function Canonicalise(name: string): (r: string)
    requires IsAscii(name)
    ensures IsCanonical(r)
    ensures |r| <= |name|
  {
    var stripped := Strip(name);
    StripShortens(name);
    var lowered := Lower(stripped);
    assert forall i | 0 <= i < |lowered| :: !('A' <= lowered[i] <= 'Z');
    var r := DeleteNonWord(SpacesToUnderscores(lowered));
    assert forall i | 0 <= i < |r| :: !('A' <= r[i] <= 'Z');
    r
  }

  lemma StripShortens(s: string)
    ensures |Strip(s)| <= |s|
  {
    TrimLeftShortens(s);
    TrimRightShortens(TrimLeft(s));
  }

  lemma TrimLeftShortens(s: string)
    ensures |TrimLeft(s)| <= |s|
  {
  }

  lemma TrimRightShortens(s: string)
    ensures |TrimRight(s)| <= |s|
  {
  }

  predicate AllWhitespace(s: string) {
    forall i | 0 <= i < |s| :: IsWhitespace(s[i])
  }

  /**
   * `strip()` comes first: whitespace around a name is removed before the
   * space-to-underscore step can see it, so it never turns into `_`.
   */
  lemma CanonicaliseStrips(w: string, x: string, w2: string)
    requires AllWhitespace(w) && AllWhitespace(w2) && IsAscii(x)
    ensures IsAscii(w + x + w2)
    ensures Canonicalise(w + x + w2) == Canonicalise(x)
  {
    var s := w + x + w2;
    assert IsAscii(s) by {
      forall i | 0 <= i < |s| ensures s[i] as int < 128 {
        if i < |w| { assert s[i] == w[i]; }
        else if i < |w| + |x| { assert s[i] == x[i - |w|]; }
        else { assert s[i] == w2[i - |w| - |x|]; }
      }
    }
    assert s == w + (x + w2);
    TrimLeftWhitespace(w, x + w2);
    StripWhitespaceRight(x, w2);
  }

  lemma {:induction false} TrimLeftWhitespace(w: string, z: string)
    requires AllWhitespace(w)
    ensures TrimLeft(w + z) == TrimLeft(z)
  {
    if w != [] {
      assert (w + z)[1..] == w[1..] + z;
      TrimLeftWhitespace(w[1..], z);
    } else {
      assert w + z == z;
    }
  }

  lemma {:induction false} TrimRightWhitespace(z: string, w2: string)
    requires AllWhitespace(w2)
    ensures TrimRight(z + w2) == TrimRight(z)
  {
    if w2 != [] {
      var n := |w2| - 1;
      assert (z + w2)[..|z + w2| - 1] == z + w2[..n];
      TrimRightWhitespace(z, w2[..n]);
    } else {
      assert z + w2 == z;
    }
  }

  lemma {:induction false} StripWhitespaceRight(x: string, w2: string)
    requires AllWhitespace(w2)
    ensures Strip(x + w2) == Strip(x)
  {
    if x == [] {
      assert x + w2 == w2;
      TrimLeftWhitespace(w2, []);
      assert w2 + [] == w2;
    } else if IsWhitespace(x[0]) {
      assert (x + w2)[1..] == x[1..] + w2;
      StripWhitespaceRight(x[1..], w2);
    } else {
      TrimRightWhitespace(x, w2);
    }
  }

  /** What one character strictly inside a name becomes: a space turns into `_`,
      a word character is lower-cased, anything else (tabs included) is deleted. */
  function CleanChar(c: char): string {
    if c == ' ' then "_" else if IsWordChar(c) then [LowerChar(c)] else ""
  }

  /** A canonical name is left alone by canonicalisation. */
  lemma {:induction false} CanonicalFixed(s: string)
    requires IsCanonical(s)
    ensures IsAscii(s) && Canonicalise(s) == s
  {
    assert TrimLeft(s) == s;
    assert TrimRight(s) == s;
    assert Lower(s) == s;
    assert SpacesToUnderscores(s) == s;
    DeleteNonWordKeepsWords(s);
  }

  lemma {:induction false} DeleteNonWordKeepsWords(s: string)
    requires forall i | 0 <= i < |s| :: IsWordChar(s[i])
    ensures DeleteNonWord(s) == s
  {
    if s != [] {
      DeleteNonWordKeepsWords(s[1..]);
    }
  }

  /** Canonicalising twice is the same as canonicalising once. */
  lemma {:induction false} CanonicaliseIdempotent(name: string)
    requires IsAscii(name)
    ensures IsAscii(Canonicalise(name))
    ensures Canonicalise(Canonicalise(name)) == Canonicalise(name)
  {
    CanonicalFixed(Canonicalise(name));
  }

  /** Inside a name (with no whitespace at the junctions) each character is
      canonicalised on its own: only a literal space becomes `_`. */
  lemma {:induction false} CanonicaliseInterior(x: string, c: char, y: string)
    requires IsAscii(x) && IsAscii(y) && c as int < 128
    requires |x| > 0 && !IsWhitespace(x[|x| - 1])
    requires |y| > 0 && !IsWhitespace(y[0])
    ensures IsAscii(x + [c] + y)
    ensures Canonicalise(x + [c] + y) == Canonicalise(x) + CleanChar(c) + Canonicalise(y)
  {
    var w := x + [c] + y;
    assert IsAscii(w) by {
      forall i | 0 <= i < |w| ensures w[i] as int < 128 {
        if i < |x| { assert w[i] == x[i]; }
        else if i > |x| { assert w[i] == y[i - |x| - 1]; }
      }
    }
    TrimLeftAppend(x, [c] + y);
    assert w == x + ([c] + y);
    TrimRightPrepend(TrimLeft(x) + [c], y);
    assert TrimLeft(w) == TrimLeft(x) + ([c] + y);
    assert TrimLeft(x) + ([c] + y) == (TrimLeft(x) + [c]) + y;
    assert Strip(w) == TrimLeft(x) + [c] + TrimRight(y);
    TrimLeftAppend(x, []);
    assert x + [] == x;
    assert TrimLeft(x) + [] == TrimLeft(x);
    assert Strip(x) == TrimLeft(x);
    assert TrimLeft(y) == y;
    assert Strip(y) == TrimRight(y);
    CleanAppend(TrimLeft(x) + [c], TrimRight(y));
    CleanAppend(TrimLeft(x), [c]);
    assert Clean([c]) == CleanChar(c) by {
      assert Lower([c]) == [LowerChar(c)];
      var d := if LowerChar(c) == ' ' then '_' else LowerChar(c);
      assert SpacesToUnderscores([LowerChar(c)]) == [d];
      assert DeleteNonWord([d]) == if IsWordChar(d) then [d] else [];
    }
  }

  lemma {:induction false} TrimLeftAppend(x: string, z: string)
    requires |x| > 0 && !IsWhitespace(x[|x| - 1])
    ensures TrimLeft(x + z) == TrimLeft(x) + z
    ensures |TrimLeft(x)| > 0 && TrimLeft(x)[|TrimLeft(x)| - 1] == x[|x| - 1]
  {
    if IsWhitespace(x[0]) {
      assert |x| > 1;
      assert (x + z)[1..] == x[1..] + z;
      TrimLeftAppend(x[1..], z);
    }
  }

  lemma {:induction false} TrimRightPrepend(z: string, y: string)
    requires |y| > 0 && !IsWhitespace(y[0])
    ensures TrimRight(z + y) == z + TrimRight(y)
    ensures |TrimRight(y)| > 0 && TrimRight(y)[0] == y[0]
  {
    var w := z + y;
    if IsWhitespace(y[|y| - 1]) {
      assert |y| > 1;
      assert w[..|w| - 1] == z + y[..|y| - 1];
      TrimRightPrepend(z, y[..|y| - 1]);
    }
  }

  lemma {:induction false} CleanAppend(a: string, b: string)
    ensures Clean(a + b) == Clean(a) + Clean(b)
  {
    assert Lower(a + b) == Lower(a) + Lower(b);
    var la, lb := Lower(a), Lower(b);
    assert SpacesToUnderscores(la + lb) == SpacesToUnderscores(la) + SpacesToUnderscores(lb);
    DeleteNonWordAppend(SpacesToUnderscores(la), SpacesToUnderscores(lb));
  }

  lemma {:induction false} DeleteNonWordAppend(a: string, b: string)
    ensures DeleteNonWord(a + b) == DeleteNonWord(a) + DeleteNonWord(b)
  {
    if a != [] {
      assert (a + b)[1..] == a[1..] + b;
      DeleteNonWordAppend(a[1..], b);
    } else {
      assert a + b == b;
    }
  }

  /** Every character of a substring occurs in the string that contains it. */
  lemma {:induction false} ContainsChars(s: string, sub: string)
    requires Contains(s, sub)
    ensures forall i | 0 <= i < |sub| :: sub[i] in s
  {
    if StartsWith(s, sub) {
      assert forall i | 0 <= i < |sub| :: sub[i] == s[i];
    } else {
      ContainsChars(s[1..], sub);
    }
  }

  /** A character missing from `s` rules out every substring holding it. */
  lemma NotContainsMissingChar(s: string, sub: string, i: nat)
    requires i < |sub| && sub[i] !in s
    ensures !Contains(s, sub)
  {
    if Contains(s, sub) {
      ContainsChars(s, sub);
    }
  }
}

=== FILE: panels.dfy ===
/**
 * The dashboard panels that compute something from the loaded table: the
 * injury map filter, the contributing-factor ranking with its top-five
 * comparison, and the hourly counts of the three most common factors.
 * Each panel works on the column values it selects; plotting is not modelled.
 */
module Panels {
  import opened Wrappers
  import opened Names
  import opened Tables
  import opened Detect
  import opened Loader
  import opened LoaderProperties

  // ---------------------------------------------------------------- counting values

  /** Number of cells of `col` equal to `v`. */
  function Count(col: seq<Cell>, v: Cell): (n: nat)
    ensures n <= |col|
  {
    if col == [] then 0
    else Count(col[..|col| - 1], v) + (if col[|col| - 1] == v then 1 else 0)
  }

  lemma {:induction false} CountMember(col: seq<Cell>, v: Cell)
    ensures Count(col, v) > 0 <==> v in col
  {
    if col != [] {
      var n := |col| - 1;
      assert col == col[..n] + [col[n]];
      CountMember(col[..n], v);
    }
  }

  /** The distinct non-missing values of `col`, in order of first appearance. */
  function Distinct(col: seq<Cell>): (d: seq<Cell>)
    ensures forall v :: v in d <==> v in col && v != Null
    ensures forall i, j | 0 <= i < j < |d| :: d[i] != d[j]
    ensures |d| <= |col|
  {
    if col == [] then []
    else
      var n := |col| - 1;
      assert col == col[..n] + [col[n]];
      var d := Distinct(col[..n]);
      if col[n] == Null || col[n] in d then d else d + [col[n]]
  }

  /** One row of `value_counts()`: a value and how often it occurs. */
  datatype Tally = Tally(value: Cell, count: nat)

  predicate NonIncreasing(ts: seq<Tally>) {
    forall i, j | 0 <= i < j < |ts| :: ts[i].count >= ts[j].count
  }

  predicate DistinctValues(ts: seq<Tally>) {
    forall i, j | 0 <= i < j < |ts| :: ts[i].value != ts[j].value
  }

  /** Inserts `t` after every tally counting at least as much, so equal counts keep their order. */
  function Insert(t: Tally, ts: seq<Tally>): (r: seq<Tally>)
    ensures |r| == |ts| + 1 && multiset(r) == multiset(ts) + multiset{t}
  {
    if ts == [] then [t]
    else if ts[0].count >= t.count then
      assert ts == [ts[0]] + ts[1..];
      [ts[0]] + Insert(t, ts[1..])
    else [t] + ts
  }

  lemma {:induction false} InsertSorted(t: Tally, ts: seq<Tally>)
    requires NonIncreasing(ts)
    ensures NonIncreasing(Insert(t, ts))
  {
    if ts != [] && ts[0].count >= t.count {
      InsertSorted(t, ts[1..]);
      var rest := Insert(t, ts[1..]);
      forall k | 0 <= k < |rest| ensures rest[k].count <= ts[0].count {
        assert rest[k] in multiset(rest);
        if rest[k] != t {
          assert rest[k] in ts[1..];
        }
      }
    }
  }

  lemma {:induction false} InsertDistinct(t: Tally, ts: seq<Tally>)
    requires DistinctValues(ts) && forall x | x in ts :: x.value != t.value
    ensures DistinctValues(Insert(t, ts))
  {
    if ts != [] && ts[0].count >= t.count {
      InsertDistinct(t, ts[1..]);
      var rest := Insert(t, ts[1..]);
      forall k | 0 <= k < |rest| ensures rest[k].value != ts[0].value {
        assert rest[k] in multiset(rest);
        if rest[k] != t {
          var m :| 0 <= m < |ts[1..]| && ts[1..][m] == rest[k];
          assert ts[m + 1] == rest[k];
        }
      }
    }
  }

  /** A stable sort of the tallies by count, largest first. */
  function SortByCount(ts: seq<Tally>): (r: seq<Tally>)
    ensures |r| == |ts| && multiset(r) == multiset(ts)
  {
    if ts == [] then []
    else
      var n := |ts| - 1;
      assert ts == ts[..n] + [ts[n]];
      Insert(ts[n], SortByCount(ts[..n]))
  }

  lemma {:induction false} SortSorted(ts: seq<Tally>)
    ensures NonIncreasing(SortByCount(ts))
  {
    if ts != [] {
      var n := |ts| - 1;
      SortSorted(ts[..n]);
      InsertSorted(ts[n], SortByCount(ts[..n]));
    }
  }

  lemma {:induction false} SortDistinct(ts: seq<Tally>)
    requires DistinctValues(ts)
    ensures DistinctValues(SortByCount(ts))
  {
    if ts != [] {
      var n := |ts| - 1;
      var s := SortByCount(ts[..n]);
      SortDistinct(ts[..n]);
      forall x | x in s ensures x.value != ts[n].value {
        assert x in multiset(ts[..n]);
        var m :| 0 <= m < n && ts[..n][m] == x;
      }
      InsertDistinct(ts[n], s);
    }
  }

  /** Each distinct non-missing value of `col` with its count, in order of first appearance. */
  function Tallies(col: seq<Cell>): (ts: seq<Tally>)
    ensures |ts| <= |col|
  {
    var d := Distinct(col);
    seq(|d|, i requires 0 <= i < |d| => Tally(d[i], Count(col, d[i])))
  }

  /** `Series.value_counts()` */
  function ValueCounts(col: seq<Cell>): (r: seq<Tally>)
    ensures |r| <= |col| && multiset(r) == multiset(Tallies(col))
  {
    SortByCount(Tallies(col))
  }

  /** `value_counts()` lists distinct values, most frequent first. */
  lemma ValueCountsSorted(col: seq<Cell>)
    ensures NonIncreasing(ValueCounts(col)) && DistinctValues(ValueCounts(col))
  {
    SortSorted(Tallies(col));
    SortDistinct(Tallies(col));
  }

  /** Each tally of `value_counts()` is a present value with the number of cells holding it. */
  lemma ValueCountsExact(col: seq<Cell>, i: nat)
    requires i < |ValueCounts(col)|
    ensures var t := ValueCounts(col)[i];
      t.value != Null && t.count == Count(col, t.value) > 0
  {
    var d := Distinct(col);
    var ts := Tallies(col);
    var r := ValueCounts(col);
    assert r[i] in multiset(ts);
    var k :| 0 <= k < |ts| && ts[k] == r[i];
    assert d[k] in d;
    CountMember(col, d[k]);
  }

  /**
   * `value_counts()` lists every non-missing value once, each with the number
   * of cells holding it, most frequent first.
   */
  lemma ValueCountsSpec(col: seq<Cell>)
    ensures var r := ValueCounts(col);
      && NonIncreasing(r) && DistinctValues(r) && |r| <= |col|
      && (forall i | 0 <= i < |r| :: r[i].value != Null && r[i].count == Count(col, r[i].value) > 0)
      && (forall v | v in col && v != Null :: v in Values(r))
  {
    ValueCountsSorted(col);
    var r := ValueCounts(col);
    forall i | 0 <= i < |r|
      ensures r[i].value != Null && r[i].count == Count(col, r[i].value) > 0
    {
      ValueCountsExact(col, i);
    }
    forall v | v in col && v != Null ensures v in Values(r) {
      ValueCountsComplete(col, v);
      var i :| 0 <= i < |r| && r[i].value == v;
      assert Values(r)[i] == v;
    }
  }

  /** Every non-missing value of the column is listed by `value_counts()`. */
  lemma ValueCountsComplete(col: seq<Cell>, v: Cell)
    requires v in col && v != Null
    ensures exists i | 0 <= i < |ValueCounts(col)| :: ValueCounts(col)[i].value == v
  {
    var d := Distinct(col);
    var ts := Tallies(col);
    var r := ValueCounts(col);
    var k :| 0 <= k < |d| && d[k] == v;
    assert ts[k] in multiset(r);
    var i :| 0 <= i < |r| && r[i] == ts[k];
  }

  /** `value_counts().head(n)` */
  function TopCounts(col: seq<Cell>, n: nat): (r: seq<Tally>)
    ensures |r| <= n
  {
    var vc := ValueCounts(col);
    vc[..if n < |vc| then n else |vc|]
  }

  /**
   * The head of `value_counts()` holds exact tallies, most frequent first; a
   * present value left out is no more frequent than any value shown, and
   * values are left out only when all `n` places are taken.
   */
  lemma TopCountsSpec(col: seq<Cell>, n: nat)
    ensures var r := TopCounts(col, n);
      && NonIncreasing(r) && DistinctValues(r)
      && (forall i | 0 <= i < |r| :: r[i].value != Null && r[i].count == Count(col, r[i].value) > 0)
      && (forall v | v in col && v != Null && v !in Values(r) ::
            |r| == n && forall i | 0 <= i < |r| :: Count(col, v) <= r[i].count)
  {
    ValueCountsSorted(col);
    var r := TopCounts(col, n);
    forall i | 0 <= i < |r|
      ensures r[i].value != Null && r[i].count == Count(col, r[i].value) > 0
    {
      ValueCountsExact(col, i);
    }
    forall v | v in col && v != Null && v !in Values(r)
      ensures |r| == n && forall i | 0 <= i < |r| :: Count(col, v) <= r[i].count
    {
      forall i | 0 <= i < |r| ensures r[i].value != v {
        assert Values(r)[i] == r[i].value;
      }
      TopCountsOmitted(col, n, v);
    }
  }

  /**
   * A value left out of the head is no more frequent than any value shown,
   * and values are left out only when all `n` places are taken.
   */
  lemma TopCountsOmitted(col: seq<Cell>, n: nat, v: Cell)
    requires v in col && v != Null
    requires forall i | 0 <= i < |TopCounts(col, n)| :: TopCounts(col, n)[i].value != v
    ensures var r := TopCounts(col, n);
      |r| == n && forall i | 0 <= i < |r| :: Count(col, v) <= r[i].count
  {
    var vc := ValueCounts(col);
    var r := TopCounts(col, n);
    ValueCountsSpec(col);
    ValueCountsComplete(col, v);
    var j :| 0 <= j < |vc| && vc[j].value == v;
    assert j >= |r| by {
      assert forall i | 0 <= i < |r| :: r[i] == vc[i];
    }
    forall i | 0 <= i < |r| ensures Count(col, v) <= r[i].count {
      assert r[i] == vc[i];
    }
  }

  /** The first tally of a non-empty head is a most frequent value. */
  lemma TopCountsFirst(col: seq<Cell>, n: nat, v: Cell)
    requires n > 0 && v in col && v != Null
    ensures var r := TopCounts(col, n);
      |r| > 0 && Count(col, v) <= r[0].count
  {
    var vc := ValueCounts(col);
    ValueCountsSorted(col);
    ValueCountsComplete(col, v);
    var j :| 0 <= j < |vc| && vc[j].value == v;
    ValueCountsExact(col, j);
    assert vc[0].count >= vc[j].count;
    assert TopCounts(col, n)[0] == vc[0];
  }

  /** The values of a list of tallies, in order (`.index.tolist()`). */
  function Values(ts: seq<Tally>): (vs: seq<Cell>)
    ensures |vs| == |ts|
    ensures forall v :: v in vs <==> exists i | 0 <= i < |ts| :: ts[i].value == v
  {
    var vs := seq(|ts|, i requires 0 <= i < |ts| => ts[i].value);
    assert forall i | 0 <= i < |ts| :: vs[i] == ts[i].value;
    vs
  }

  // ---------------------------------------------------------------- panel 3: factor ranking

  /** Whether some label names a vehicle's contributing factor: the gate of panels 3 and 5. */
  predicate HasFactorColumn(names: seq<string>) {
    exists n | n in names :: Contains(n, "contributing_factor_vehicle_")
  }

  /** Each standard factor label starts with the gate's substring. */
  lemma TargetHasFactorPrefix(i: nat)
    requires 1 <= i <= 5
    ensures Contains(FactorTarget(i), "contributing_factor_vehicle_")
  {
    assert FactorTarget(i) == "contributing_factor_vehicle_" + [('0' as int + i) as char];
    assert StartsWith(FactorTarget(i), "contributing_factor_vehicle_");
  }

  /**
   * The columns panel 3 offers: the standard factor labels present, vehicle 1
   * before vehicle 2, or none when no label names a vehicle's factor.
   */
  function FactorChoices(names: seq<string>): (r: seq<string>)
    ensures forall x :: x in r <==> (x == FactorTarget(1) || x == FactorTarget(2)) && x in names
    ensures |r| <= 2 && (|r| == 2 ==> r == [FactorTarget(1), FactorTarget(2)])
  {
    if !HasFactorColumn(names) then
      assert FactorTarget(1) !in names by { TargetHasFactorPrefix(1); }
      assert FactorTarget(2) !in names by { TargetHasFactorPrefix(2); }
      []
    else
      (if FactorTarget(1) in names then [FactorTarget(1)] else [])
        + (if FactorTarget(2) in names then [FactorTarget(2)] else [])
  }

  /** `.fillna('Unknown').replace('', 'Unspecified')` on one cell. */
  function CleanFactor(c: Cell): (r: Cell)
    ensures r != Null && r != Text("")
    ensures c != Null && c != Text("") ==> r == c
  {
    if c == Null then Text("Unknown")
    else if c == Text("") then Text("Unspecified")
    else c
  }

  function CleanFactors(col: seq<Cell>): (r: seq<Cell>)
    ensures |r| == |col|
    ensures Null !in r && Text("") !in r
    ensures forall k | 0 <= k < |col| && col[k] != Null && col[k] != Text("") :: r[k] == col[k]
  {
    seq(|col|, k requires 0 <= k < |col| => CleanFactor(col[k]))
  }

  /**
   * Cleaning folds the missing cells into "Unknown" and the empty ones into
   * "Unspecified" and leaves every other value's count alone.
   */
  lemma {:induction false} CleanFactorCounts(col: seq<Cell>, v: Cell)
    ensures Count(CleanFactors(col), v) ==
      if v == Text("Unknown") then Count(col, Null) + Count(col, v)
      else if v == Text("Unspecified") then Count(col, Text("")) + Count(col, v)
      else if v == Null || v == Text("") then 0
      else Count(col, v)
  {
    if col != [] {
      var n := |col| - 1;
      CleanFactorCounts(col[..n], v);
      assert CleanFactors(col)[..n] == CleanFactors(col[..n]);
    }
  }

  /** The labels the ranking hides. */
  const Hidden: set<Cell> := {Text("Unspecified"), Text("Unknown"), Text("unspecified"), Text("unknown")}

  /** `top[~top['factor'].isin(Hidden)]`: drops the hidden labels, keeping order. */
  function Unhidden(ts: seq<Tally>): (r: seq<Tally>)
    ensures |r| <= |ts|
  {
    if ts == [] then []
    else if ts[0].value in Hidden then Unhidden(ts[1..])
    else [ts[0]] + Unhidden(ts[1..])
  }

  lemma {:induction false} UnhiddenMember(ts: seq<Tally>, x: Tally)
    ensures x in Unhidden(ts) <==> x in ts && x.value !in Hidden
  {
    if ts != [] {
      UnhiddenMember(ts[1..], x);
      assert ts == [ts[0]] + ts[1..];
    }
  }

  /** Dropping the hidden labels keeps the order of what remains. */
  lemma {:induction false} UnhiddenOrder(ts: seq<Tally>)
    ensures NonIncreasing(ts) ==> NonIncreasing(Unhidden(ts))
    ensures DistinctValues(ts) ==> DistinctValues(Unhidden(ts))
  {
    if ts != [] {
      UnhiddenOrder(ts[1..]);
      var rest := Unhidden(ts[1..]);
      forall k | 0 <= k < |rest|
        ensures NonIncreasing(ts) ==> rest[k].count <= ts[0].count
        ensures DistinctValues(ts) ==> rest[k].value != ts[0].value
      {
        UnhiddenMember(ts[1..], rest[k]);
        var m :| 0 <= m < |ts[1..]| && ts[1..][m] == rest[k];
        assert ts[m + 1] == rest[k];
      }
    }
  }

  /** The bar chart of panel 3: the fifteen most common cleaned factors, less the hidden labels. */
  function FactorRanking(col: seq<Cell>): (r: seq<Tally>)
    ensures |r| <= 15
  {
    Unhidden(TopCounts(CleanFactors(col), 15))
  }

  /**
   * The ranking shows at most fifteen factors, most frequent first, none of
   * them hidden or missing, each with its exact count in the cleaned column;
   * a shown factor is at least as frequent as any visible factor left out.
   */
  lemma FactorRankingSpec(col: seq<Cell>)
    ensures var r := FactorRanking(col);
      && |r| <= 15 && NonIncreasing(r) && DistinctValues(r)
      && (forall i | 0 <= i < |r| ::
            && r[i].value !in Hidden && r[i].value != Null && r[i].value != Text("")
            && r[i].count == Count(CleanFactors(col), r[i].value) > 0)
      && (forall v | v in CleanFactors(col) && v !in Hidden && (forall i | 0 <= i < |r| :: r[i].value != v) ::
            forall i | 0 <= i < |r| :: Count(CleanFactors(col), v) <= r[i].count)
    ensures var r, top := FactorRanking(col), TopCounts(CleanFactors(col), 15);
      forall t :: t in r <==> t in top && t.value !in Hidden
  {
    FactorRankingExact(col);
    FactorRankingOmitted(col);
    FactorRankingShows(col);
  }

  /** The ranking is ordered and distinct, and each shown factor is visible with its exact count. */
  lemma FactorRankingExact(col: seq<Cell>)
    ensures var r := FactorRanking(col);
      && |r| <= 15 && NonIncreasing(r) && DistinctValues(r)
      && (forall i | 0 <= i < |r| ::
            && r[i].value !in Hidden && r[i].value != Null && r[i].value != Text("")
            && r[i].count == Count(CleanFactors(col), r[i].value) > 0)
  {
    var cleaned := CleanFactors(col);
    var top := TopCounts(cleaned, 15);
    var r := Unhidden(top);
    TopCountsSpec(cleaned, 15);
    UnhiddenOrder(top);
    forall i | 0 <= i < |r|
      ensures r[i].value !in Hidden && r[i].value != Null && r[i].value != Text("")
      ensures r[i].count == Count(cleaned, r[i].value) > 0
    {
      UnhiddenMember(top, r[i]);
      var j :| 0 <= j < |top| && top[j] == r[i];
      CountMember(cleaned, r[i].value);
      var k :| 0 <= k < |cleaned| && cleaned[k] == r[i].value;
    }
  }

  /** A visible factor left out of the ranking is no more frequent than any factor shown. */
  lemma FactorRankingOmitted(col: seq<Cell>)
    ensures var r := FactorRanking(col);
      forall v | v in CleanFactors(col) && v !in Hidden && (forall i | 0 <= i < |r| :: r[i].value != v) ::
        forall i | 0 <= i < |r| :: Count(CleanFactors(col), v) <= r[i].count
  {
    var cleaned := CleanFactors(col);
    var top := TopCounts(cleaned, 15);
    var r := Unhidden(top);
    forall v | v in cleaned && v !in Hidden && (forall i | 0 <= i < |r| :: r[i].value != v)
      ensures forall i | 0 <= i < |r| :: Count(cleaned, v) <= r[i].count
    {
      var k :| 0 <= k < |cleaned| && cleaned[k] == v;
      forall j | 0 <= j < |top| ensures top[j].value != v {
        UnhiddenMember(top, top[j]);
      }
      TopCountsOmitted(cleaned, 15, v);
      forall i | 0 <= i < |r| ensures Count(cleaned, v) <= r[i].count {
        UnhiddenMember(top, r[i]);
        var j :| 0 <= j < |top| && top[j] == r[i];
      }
    }
  }

  /** The ranking shows exactly the visible entries of the fifteen-row head. */
  lemma FactorRankingShows(col: seq<Cell>)
    ensures var r, top := FactorRanking(col), TopCounts(CleanFactors(col), 15);
      forall t :: t in r <==> t in top && t.value !in Hidden
  {
    var top := TopCounts(CleanFactors(col), 15);
    forall t ensures t in FactorRanking(col) <==> t in top && t.value !in Hidden {
      UnhiddenMember(top, t);
    }
  }

  /** One half of the vehicle 1 / vehicle 2 comparison: the five most common cleaned factors. */
  function TopFive(col: seq<Cell>): (r: seq<Tally>)
    ensures |r| <= 5
  {
    TopCounts(CleanFactors(col), 5)
  }

  /**
   * The comparison table of a column is the head of the same ranking the
   * bar chart starts from, before the hidden labels are dropped, so it may
   * show "Unknown" and "Unspecified".
   */
  lemma TopFiveLeadsRanking(col: seq<Cell>)
    ensures var five := TopFive(col);
      var fifteen := TopCounts(CleanFactors(col), 15);
      && |five| <= |fifteen| && five == fifteen[..|five|]
      && (|fifteen| >= 5 ==> |five| == 5)
    ensures forall t | t in TopFive(col) && t.value !in Hidden :: t in FactorRanking(col)
  {
    var five, fifteen := TopFive(col), TopCounts(CleanFactors(col), 15);
    forall t | t in five && t.value !in Hidden ensures t in FactorRanking(col) {
      var i :| 0 <= i < |five| && five[i] == t;
      assert fifteen[i] == t;
      UnhiddenMember(fifteen, t);
    }
  }

  // ---------------------------------------------------------------- panel 1: injury map

  /** A table whose panel labels each select a single column. */
  predicate PanelReady(t: Table) {
    && WellFormed(t)
    && Occurrences(t.names, "injured_persons") <= 1
    && ("latitude" in t.names && "longitude" in t.names ==>
          Occurrences(t.names, "latitude") == 1 && Occurrences(t.names, "longitude") == 1)
  }

  /** Every table the loader produces is ready for the panels. */
  lemma LoadedTableReady(raw: Table, p: Parsers)
    requires WellFormed(raw) && AsciiNames(raw.names) && Normalise(raw, p).Ok?
    ensures PanelReady(Normalise(raw, p).value)
  {
    LoadedLabelsUnique(raw, p);
  }

  /** The labels the map needs, in the order its warning checks them. */
  const MapColumns: seq<string> := ["injured_persons", "latitude", "longitude"]

  /** Position of a label in `MapColumns`. */
  function MapRank(x: string): nat {
    if x == "injured_persons" then 0 else if x == "latitude" then 1 else 2
  }

  /** The labels the map needs but the table lacks, in the order the warning lists them. */
  function MissingColumns(names: seq<string>): (r: seq<string>)
    ensures |r| <= 3
    ensures r == [] <==> "injured_persons" in names && "latitude" in names && "longitude" in names
    ensures forall x | x in r :: x in MapColumns && x !in names
    ensures forall x | x in MapColumns && x !in names :: x in r
    ensures forall i, j | 0 <= i < j < |r| :: MapRank(r[i]) < MapRank(r[j])
  {
    (if "injured_persons" in names then [] else ["injured_persons"])
      + (if "latitude" in names then [] else ["latitude"])
      + (if "longitude" in names then [] else ["longitude"])
  }

  /** The cells of the column labelled `key` (its first, and in a ready table only, column). */
  function Column(t: Table, key: string): (col: seq<Cell>)
    requires WellFormed(t) && key in t.names
    ensures |col| == |t.rows|
  {
    ColumnAt(t, IndexOf(t.names, key))
  }

  /** `data['injured_persons'] >= k`: a missing count compares false. */
  predicate AtLeast(c: Cell, k: int) {
    c.Num? && c.num >= k as real
  }

  /** One location on the map. */
  datatype Point = Point(lat: Cell, lon: Cell)

  /** Whether row `i` is drawn: enough injuries and both coordinates present. */
  predicate Drawn(injuries: seq<Cell>, lats: seq<Cell>, lons: seq<Cell>, k: int, i: nat)
    requires i < |injuries| == |lats| == |lons|
  {
    AtLeast(injuries[i], k) && lats[i] != Null && lons[i] != Null
  }

  /** `data[injuries >= k][['latitude', 'longitude']].dropna()` */
  function Points(injuries: seq<Cell>, lats: seq<Cell>, lons: seq<Cell>, k: int): (r: seq<Point>)
    requires |injuries| == |lats| == |lons|
    ensures |r| <= |injuries|
  {
    if injuries == [] then []
    else
      var n := |injuries| - 1;
      var rest := Points(injuries[..n], lats[..n], lons[..n], k);
      if Drawn(injuries, lats, lons, k, n) then rest + [Point(lats[n], lons[n])] else rest
  }

  /** A point is on the map exactly when some row with enough injuries and both coordinates has it. */
  lemma {:induction false} PointsMember(injuries: seq<Cell>, lats: seq<Cell>, lons: seq<Cell>, k: int, q: Point)
    requires |injuries| == |lats| == |lons|
    ensures q in Points(injuries, lats, lons, k) <==>
      exists i | 0 <= i < |injuries| :: Drawn(injuries, lats, lons, k, i) && q == Point(lats[i], lons[i])
  {
    if injuries != [] {
      var n := |injuries| - 1;
      PointsMember(injuries[..n], lats[..n], lons[..n], k, q);
      if q in Points(injuries[..n], lats[..n], lons[..n], k) {
        var i :| 0 <= i < n && Drawn(injuries[..n], lats[..n], lons[..n], k, i) && q == Point(lats[..n][i], lons[..n][i]);
        assert Drawn(injuries, lats, lons, k, i);
      }
      if exists i | 0 <= i < |injuries| :: Drawn(injuries, lats, lons, k, i) && q == Point(lats[i], lons[i]) {
        var i :| 0 <= i < |injuries| && Drawn(injuries, lats, lons, k, i) && q == Point(lats[i], lons[i]);
        if i < n {
          assert Drawn(injuries[..n], lats[..n], lons[..n], k, i);
        }
      }
    }
  }

  /** The indices of the rows the map draws, in table order. */
  function DrawnRows(injuries: seq<Cell>, lats: seq<Cell>, lons: seq<Cell>, k: int): (r: seq<nat>)
    requires |injuries| == |lats| == |lons|
    ensures forall i, j | 0 <= i < j < |r| :: r[i] < r[j]
    ensures forall i: nat :: i in r <==> i < |injuries| && Drawn(injuries, lats, lons, k, i)
  {
    if injuries == [] then []
    else
      var n := |injuries| - 1;
      var rest := DrawnRows(injuries[..n], lats[..n], lons[..n], k);
      assert forall i: nat | i < n :: Drawn(injuries[..n], lats[..n], lons[..n], k, i) == Drawn(injuries, lats, lons, k, i);
      assert forall j | 0 <= j < |rest| :: rest[j] in rest && rest[j] < n;
      if Drawn(injuries, lats, lons, k, n) then rest + [n] else rest
  }

  /** One point per drawn row, in row order: the i-th point is the location of the i-th drawn row. */
  lemma {:induction false} PointsRows(injuries: seq<Cell>, lats: seq<Cell>, lons: seq<Cell>, k: int)
    requires |injuries| == |lats| == |lons|
    ensures var pts, d := Points(injuries, lats, lons, k), DrawnRows(injuries, lats, lons, k);
      && |pts| == |d|
      && forall i | 0 <= i < |d| :: d[i] < |lats| && pts[i] == Point(lats[d[i]], lons[d[i]])
  {
    if injuries != [] {
      var n := |injuries| - 1;
      PointsRows(injuries[..n], lats[..n], lons[..n], k);
      var d := DrawnRows(injuries[..n], lats[..n], lons[..n], k);
      forall i | 0 <= i < |d| ensures d[i] < n {
        assert d[i] in d;
      }
    }
  }

  /** Raising the injury threshold never adds a location: it keeps a subset of the points. */
  lemma {:induction false} PointsThreshold(injuries: seq<Cell>, lats: seq<Cell>, lons: seq<Cell>, k1: int, k2: int)
    requires |injuries| == |lats| == |lons| && k1 <= k2
    ensures |Points(injuries, lats, lons, k2)| <= |Points(injuries, lats, lons, k1)|
    ensures forall q | q in Points(injuries, lats, lons, k2) :: q in Points(injuries, lats, lons, k1)
  {
    if injuries != [] {
      var n := |injuries| - 1;
      PointsThreshold(injuries[..n], lats[..n], lons[..n], k1, k2);
    }
  }

  /** Panel 1: `None` is the warning about missing columns, otherwise the points drawn. */
  function MapPanel(t: Table, k: int): (r: Option<seq<Point>>)
    requires PanelReady(t)
    ensures r.None? <==> MissingColumns(t.names) != []
    ensures r.Some? ==> |r.value| <= |t.rows|
  {
    if MissingColumns(t.names) != [] then None
    else Some(Points(Column(t, "injured_persons"), Column(t, "latitude"), Column(t, "longitude"), k))
  }

  /** On a table with all three columns, a location is drawn exactly when some qualifying row has it. */
  lemma MapPanelMember(t: Table, k: int, q: Point)
    requires PanelReady(t) && MissingColumns(t.names) == []
    ensures var inj, lat, lon := IndexOf(t.names, "injured_persons"), IndexOf(t.names, "latitude"), IndexOf(t.names, "longitude");
      q in MapPanel(t, k).value <==>
        exists row | row in t.rows ::
          AtLeast(row[inj], k) && row[lat] != Null && row[lon] != Null && q == Point(row[lat], row[lon])
  {
    var inj, lat, lon := IndexOf(t.names, "injured_persons"), IndexOf(t.names, "latitude"), IndexOf(t.names, "longitude");
    var injuries, lats, lons := Column(t, "injured_persons"), Column(t, "latitude"), Column(t, "longitude");
    PointsMember(injuries, lats, lons, k, q);
    if exists row | row in t.rows :: AtLeast(row[inj], k) && row[lat] != Null && row[lon] != Null && q == Point(row[lat], row[lon]) {
      var row :| row in t.rows && AtLeast(row[inj], k) && row[lat] != Null && row[lon] != Null && q == Point(row[lat], row[lon]);
      var i :| 0 <= i < |t.rows| && t.rows[i] == row;
      assert Drawn(injuries, lats, lons, k, i);
    }
    if q in MapPanel(t, k).value {
      var i :| 0 <= i < |injuries| && Drawn(injuries, lats, lons, k, i) && q == Point(lats[i], lons[i]);
      assert t.rows[i] in t.rows;
    }
  }

  /** On a table with all three columns, the map has one point per qualifying row, in row order. */
  lemma MapPanelRows(t: Table, k: int)
    requires PanelReady(t) && MissingColumns(t.names) == []
    ensures var inj, lat, lon := IndexOf(t.names, "injured_persons"), IndexOf(t.names, "latitude"), IndexOf(t.names, "longitude");
      var pts, d := MapPanel(t, k).value, DrawnRows(Column(t, "injured_persons"), Column(t, "latitude"), Column(t, "longitude"), k);
      && (forall i: nat :: i in d <==>
            i < |t.rows| && AtLeast(t.rows[i][inj], k) && t.rows[i][lat] != Null && t.rows[i][lon] != Null)
      && |pts| == |d|
      && forall j | 0 <= j < |d| :: d[j] < |t.rows| && pts[j] == Point(t.rows[d[j]][lat], t.rows[d[j]][lon])
  {
    PointsRows(Column(t, "injured_persons"), Column(t, "latitude"), Column(t, "longitude"), k);
  }

  /**
   * Panel 1 on a table with all three columns: a location is drawn exactly
   * when some row has at least `k` injured persons and both coordinates
   * present, and the points are those rows' locations, one per row, in row
   * order (`DrawnRows` lists the rows, strictly increasing).
   */
  lemma MapPanelSpec(t: Table, k: int, q: Point)
    requires PanelReady(t) && MissingColumns(t.names) == []
    ensures var inj, lat, lon := IndexOf(t.names, "injured_persons"), IndexOf(t.names, "latitude"), IndexOf(t.names, "longitude");
      q in MapPanel(t, k).value <==>
        exists row | row in t.rows ::
          AtLeast(row[inj], k) && row[lat] != Null && row[lon] != Null && q == Point(row[lat], row[lon])
    ensures var inj, lat, lon := IndexOf(t.names, "injured_persons"), IndexOf(t.names, "latitude"), IndexOf(t.names, "longitude");
      var pts, d := MapPanel(t, k).value, DrawnRows(Column(t, "injured_persons"), Column(t, "latitude"), Column(t, "longitude"), k);
      && (forall i: nat :: i in d <==>
            i < |t.rows| && AtLeast(t.rows[i][inj], k) && t.rows[i][lat] != Null && t.rows[i][lon] != Null)
      && |pts| == |d|
      && forall j | 0 <= j < |d| :: d[j] < |t.rows| && pts[j] == Point(t.rows[d[j]][lat], t.rows[d[j]][lon])
  {
    MapPanelMember(t, k, q);
    MapPanelRows(t, k);
  }

  // ---------------------------------------------------------------- panel 5: factors by hour

  /** The factor columns panel 5 offers: labels naming vehicle 1 or 2, in table order. */
  function TimeFactorChoices(names: seq<string>): (r: seq<string>)
    ensures |r| <= |names|
  {
    if names == [] then []
    else
      var rest := TimeFactorChoices(names[1..]);
      if Contains(names[0], "contributing_factor_vehicle_1") || Contains(names[0], "contributing_factor_vehicle_2")
      then [names[0]] + rest else rest
  }

  lemma {:induction false} TimeFactorChoicesMember(names: seq<string>, x: string)
    ensures x in TimeFactorChoices(names) <==>
      x in names && (Contains(x, "contributing_factor_vehicle_1") || Contains(x, "contributing_factor_vehicle_2"))
  {
    if names != [] {
      TimeFactorChoicesMember(names[1..], x);
      assert names == [names[0]] + names[1..];
    }
  }

  /** `.dt.hour` of one datetime cell; a missing stamp gives a missing hour. */
  function HourCell(c: Cell): (h: Cell)
    ensures h.Null? || h.Num?
  {
    if c.Time? then Num(c.stamp.hour as real) else Null
  }

  /** `data['datetime'].dt.hour`: a duplicated `datetime` label selects a frame, which has no `.dt`. */
  function HourColumn(t: Table): (r: Result<seq<Cell>, LoadError>)
    requires WellFormed(t) && "datetime" in t.names
    ensures r.Ok? <==> Occurrences(t.names, "datetime") == 1
    ensures r.Ok? ==> |r.value| == |t.rows|
    ensures r.Ok? ==> forall k | 0 <= k < |t.rows| :: r.value[k] == HourCell(t.rows[k][IndexOf(t.names, "datetime")])
  {
    var stamps :- Select(t, "datetime");
    Ok(seq(|stamps|, k requires 0 <= k < |stamps| => HourCell(stamps[k])))
  }

  /** `data['hour'] = data['datetime'].dt.hour`, updating the frame in place. */
  method AddHourColumn(f: Frame) returns (failure: Option<LoadError>)
    requires f.Valid() && "datetime" in f.names
    modifies f
    ensures failure.None? <==> Occurrences(old(f.names), "datetime") == 1
    ensures failure.Some? ==> f.Value() == old(f.Value())
    ensures failure.None? ==> f.Valid() && f.Value() == Assign(old(f.Value()), "hour", HourColumn(old(f.Value())).value)
  {
    var hours := HourColumn(f.Value());
    if hours.Err? {
      return Some(hours.error);
    }
    f.Set("hour", hours.value);
    return None;
  }

  /** `.fillna('Unknown')` */
  function FillUnknown(col: seq<Cell>): (r: seq<Cell>)
    ensures |r| == |col| && Null !in r
    ensures forall k | 0 <= k < |col| && col[k] != Null :: r[k] == col[k]
  {
    seq(|col|, k requires 0 <= k < |col| => if col[k] == Null then Text("Unknown") else col[k])
  }

  /** Filling folds the missing cells into "Unknown" and leaves every other value's count alone. */
  lemma {:induction false} FillUnknownCounts(col: seq<Cell>, v: Cell)
    ensures Count(FillUnknown(col), v) ==
      if v == Text("Unknown") then Count(col, Null) + Count(col, v)
      else if v == Null then 0
      else Count(col, v)
  {
    if col != [] {
      var n := |col| - 1;
      FillUnknownCounts(col[..n], v);
      assert FillUnknown(col)[..n] == FillUnknown(col[..n]);
    }
  }

  /** `.fillna('Unknown').value_counts().head(3).index.tolist()` */
  function TopThree(factors: seq<Cell>): (top: seq<Cell>)
    ensures |top| <= 3
  {
    Values(TopCounts(FillUnknown(factors), 3))
  }

  /** Number of rows whose hour is `h` and whose factor is `f`. */
  function PairCount(hours: seq<Cell>, factors: seq<Cell>, h: Cell, f: Cell): (n: nat)
    requires |hours| == |factors|
    ensures n <= |hours|
  {
    if hours == [] then 0
    else
      var n := |hours| - 1;
      PairCount(hours[..n], factors[..n], h, f) + (if hours[n] == h && factors[n] == f then 1 else 0)
  }

  /**
   * `data[factors.isin(top)].groupby(['hour', factor]).size()`: one counter
   * per (hour, factor) pair, raised row by row. `isin` compares the raw
   * cells, so a missing factor never matches; `groupby` drops missing keys.
   */
  function GroupCounts(hours: seq<Cell>, factors: seq<Cell>, top: seq<Cell>): (m: map<(Cell, Cell), nat>)
    requires |hours| == |factors|
    ensures forall key | key in m :: key.1 in top && key.0 != Null && key.1 != Null && 0 < m[key] <= |hours|
    ensures |m.Keys| <= |hours|
  {
    if hours == [] then map[]
    else
      var n := |hours| - 1;
      var m := GroupCounts(hours[..n], factors[..n], top);
      if factors[n] in top && hours[n] != Null && factors[n] != Null then
        var key := (hours[n], factors[n]);
        assert m[key := 0].Keys == m.Keys + {key};
        m[key := (if key in m then m[key] else 0) + 1]
      else m
  }

  /** Each group is exactly the set of matching rows, counted once each. */
  lemma {:induction false} GroupCountsSpec(hours: seq<Cell>, factors: seq<Cell>, top: seq<Cell>, h: Cell, f: Cell)
    requires |hours| == |factors|
    ensures var m := GroupCounts(hours, factors, top);
      && ((h, f) in m <==> f in top && h != Null && f != Null && PairCount(hours, factors, h, f) > 0)
      && ((h, f) in m ==> m[(h, f)] == PairCount(hours, factors, h, f))
  {
    if hours != [] {
      var n := |hours| - 1;
      GroupCountsSpec(hours[..n], factors[..n], top, h, f);
    }
  }

  /** Panel 5: counts per hour of the rows whose factor is among the top three. */
  function HourlyFactors(hours: seq<Cell>, factors: seq<Cell>): (m: map<(Cell, Cell), nat>)
    requires |hours| == |factors|
    ensures |m.Keys| <= |hours|
    ensures forall key | key in m :: key.1 in TopThree(factors) && key.0 != Null && key.1 != Null
  {
    GroupCounts(hours, factors, TopThree(factors))
  }

  /**
   * At most three factors are charted: the most common ones once missing
   * cells count as "Unknown", and a factor left out is no more common than
   * any of them.
   */
  lemma TopThreeSpec(factors: seq<Cell>)
    ensures var top, filled := TopThree(factors), FillUnknown(factors);
      && |top| <= 3
      && (forall i, j | 0 <= i < j < |top| :: top[i] != top[j])
      && (forall i | 0 <= i < |top| :: Count(filled, top[i]) > 0)
      && (forall v | v in filled && v !in top ::
            |top| == 3 && forall i | 0 <= i < |top| :: Count(filled, v) <= Count(filled, top[i]))
  {
    var filled := FillUnknown(factors);
    var tops := TopCounts(filled, 3);
    TopCountsSpec(filled, 3);
    forall v | v in filled && v !in TopThree(factors)
      ensures |tops| == 3 && forall i | 0 <= i < |tops| :: Count(filled, v) <= Count(filled, tops[i].value)
    {
      var k :| 0 <= k < |filled| && filled[k] == v;
      forall i | 0 <= i < |tops| ensures tops[i].value != v {
        assert TopThree(factors)[i] == tops[i].value;
      }
      TopCountsOmitted(filled, 3, v);
    }
  }

  /**
   * The chart of panel 5 has a point for an hour and a factor exactly when
   * the factor is among the top three and some row of that hour has that
   * factor written in it; the point counts exactly those rows.
   */
  lemma HourlyFactorsSpec(hours: seq<Cell>, factors: seq<Cell>, h: Cell, f: Cell)
    requires |hours| == |factors|
    ensures var m := HourlyFactors(hours, factors);
      && ((h, f) in m <==> f in TopThree(factors) && h != Null && f != Null && PairCount(hours, factors, h, f) > 0)
      && ((h, f) in m ==> m[(h, f)] == PairCount(hours, factors, h, f))
  {
    GroupCountsSpec(hours, factors, TopThree(factors), h, f);
  }

  /**
   * Missing factors can make "Unknown" a top-three factor, yet no row is
   * charted under it: two missing factors in hour 8 give "Unknown" the top
   * place but no group.
   */
  lemma MissingFactorsNotCharted()
    ensures var hours, factors := [Num(8.0), Num(8.0), Num(8.0)], [Null, Null, Text("Unsafe Speed")];
      && |TopThree(factors)| > 0 && TopThree(factors)[0] == Text("Unknown")
      && (Num(8.0), Text("Unknown")) !in HourlyFactors(hours, factors)
  {
    var hours, factors := [Num(8.0), Num(8.0), Num(8.0)], [Null, Null, Text("Unsafe Speed")];
    var filled := FillUnknown(factors);
    ExampleCounts();
    var top := TopCounts(filled, 3);
    TopCountsFirst(filled, 3, Text("Unknown"));
    TopCountsSpec(filled, 3);
    CountMember(filled, top[0].value);
    assert top[0].value == Text("Unknown");
    HourlyFactorsSpec(hours, factors, Num(8.0), Text("Unknown"));
    ExamplePairCount();
  }

  lemma ExampleCounts()
    ensures var filled := FillUnknown([Null, Null, Text("Unsafe Speed")]);
      && filled == [Text("Unknown"), Text("Unknown"), Text("Unsafe Speed")]
      && Count(filled, Text("Unknown")) == 2 && Count(filled, Text("Unsafe Speed")) == 1
  {
    var filled := FillUnknown([Null, Null, Text("Unsafe Speed")]);
    assert filled == [Text("Unknown"), Text("Unknown"), Text("Unsafe Speed")];
    assert Text("Unknown") != Text("Unsafe Speed") by {
      assert |"Unknown"| != |"Unsafe Speed"|;
    }
    assert filled[..2] == [Text("Unknown"), Text("Unknown")];
    assert filled[..2][..1] == [Text("Unknown")];
    assert [Text("Unknown")][..0] == [];
  }

  lemma ExamplePairCount()
    ensures PairCount([Num(8.0), Num(8.0), Num(8.0)], [Null, Null, Text("Unsafe Speed")], Num(8.0), Text("Unknown")) == 0
  {
    var hours, factors := [Num(8.0), Num(8.0), Num(8.0)], [Null, Null, Text("Unsafe Speed")];
    assert Text("Unknown") != Text("Unsafe Speed") by {
      assert |"Unknown"| != |"Unsafe Speed"|;
    }
    assert hours[..2] == [Num(8.0), Num(8.0)] && factors[..2] == [Null, Null];
    assert hours[..2][..1] == [Num(8.0)] && factors[..2][..1] == [Null];
    assert [Num(8.0)][..0] == [] && [Null][..0] == [];
  }
}

=== FILE: properties.dfy ===
/**
 * What the normaliser guarantees about the table it returns, proved about
 * the specification `Normalise` and its steps.
 */
module LoaderProperties {
  import opened Wrappers
  import opened Names
  import opened Tables
  import opened Detect
  import opened Loader
  import opened Labels

  // ---------------------------------------------------------------- helpers on labels

  lemma {:induction false} RenameOccurrences(names: seq<string>, m: map<string, string>, x: string)
    requires x !in m && forall k | k in m :: m[k] != x
    ensures Occurrences(Rename(names, m), x) == Occurrences(names, x)
  {
    if names != [] {
      assert Rename(names, m)[1..] == Rename(names[1..], m);
      RenameOccurrences(names[1..], m, x);
    }
  }

  /** Labels no step after the `datetime` step can rename into or out of. */
  predicate Untouched(x: string) {
    && !Contains(x, "lat") && !Contains(x, "lon") && !Contains(x, "injured")
    && !Contains(x, "contributing_factor")
    && x != "latitude" && x != "longitude" && x != "injured_persons"
    && x != FactorTarget(1) && x != FactorTarget(2)
  }

  lemma {:induction false} CoordinatesKeepOthers(t: Table, x: string)
    requires WellFormed(t) && Untouched(x)
    ensures Occurrences(RenameCoordinates(t, FirstWith(t.names, "lat"), FirstWith(t.names, "lon")).names, x)
      == Occurrences(t.names, x)
  {
    var la, lo := FirstWith(t.names, "lat"), FirstWith(t.names, "lon");
    var t1 := if la.Some? then RenameTable(t, map[la.value := "latitude"]) else t;
    if la.Some? {
      RenameOccurrences(t.names, map[la.value := "latitude"], x);
    }
    if lo.Some? {
      RenameOccurrences(t1.names, map[lo.value := "longitude"], x);
    }
  }

  lemma {:induction false} InjuryKeepsOthers(t: Table, p: Parsers, x: string)
    requires WellFormed(t) && Untouched(x)
    requires FillInjuries(t, p, NameAt(t.names, InjuryIndex(t.names))).Ok?
    ensures Occurrences(FillInjuries(t, p, NameAt(t.names, InjuryIndex(t.names))).value.names, x)
      == Occurrences(t.names, x)
  {
    var inj := NameAt(t.names, InjuryIndex(t.names));
    if inj.Some? {
      RenameOccurrences(t.names, map[inj.value := "injured_persons"], x);
    }
  }

  lemma {:induction false} FactorsKeepOthers(t: Table, x: string)
    requires WellFormed(t) && Untouched(x)
    ensures Occurrences(RenameFactors(t, FactorMap(t.names)).names, x) == Occurrences(t.names, x)
  {
    var m := FactorMap(t.names);
    if m != map[] {
      RenameOccurrences(t.names, m, x);
    }
  }

  lemma DropKeepsNames(t: Table, p: Parsers)
    requires WellFormed(t) && DropMissingCoordinates(t, p).Ok?
    ensures DropMissingCoordinates(t, p).value.names == t.names
  {
  }

  /** Every label the later steps leave alone occurs as often after the load as after the `datetime` step. */
  lemma {:induction false} LaterStepsKeepOthers(t1: Table, p: Parsers, x: string)
    requires WellFormed(t1) && Untouched(x)
    requires var t2 := RenameCoordinates(t1, FirstWith(t1.names, "lat"), FirstWith(t1.names, "lon"));
      FillInjuries(t2, p, NameAt(t2.names, InjuryIndex(t2.names))).Ok?
    ensures var t2 := RenameCoordinates(t1, FirstWith(t1.names, "lat"), FirstWith(t1.names, "lon"));
      var t3 := FillInjuries(t2, p, NameAt(t2.names, InjuryIndex(t2.names))).value;
      var t4 := RenameFactors(t3, FactorMap(t3.names));
      Occurrences(t4.names, x) == Occurrences(t1.names, x)
  {
    var t2 := RenameCoordinates(t1, FirstWith(t1.names, "lat"), FirstWith(t1.names, "lon"));
    CoordinatesKeepOthers(t1, x);
    InjuryKeepsOthers(t2, p, x);
    var t3 := FillInjuries(t2, p, NameAt(t2.names, InjuryIndex(t2.names))).value;
    FactorsKeepOthers(t3, x);
  }

  // ---------------------------------------------------------------- datetime

  lemma DatetimeLabel()
    ensures Untouched("datetime") && Contains("datetime", "date")
  {
    DatetimeSubstrings();
    DatetimeDiffers();
  }

  /** After the `datetime` step, the column is there exactly when a date column was found. */
  lemma {:induction false} DatetimeStep(t0: Table, p: Parsers)
    requires WellFormed(t0)
    requires AddDatetime(t0, p, FirstWith(t0.names, "date"), FirstWith(t0.names, "time")).Ok?
    ensures "datetime" in AddDatetime(t0, p, FirstWith(t0.names, "date"), FirstWith(t0.names, "time")).value.names
      <==> FirstWith(t0.names, "date").Some?
  {
    DatetimeLabel();
  }

  /**
   * A `datetime` column is in the loaded table exactly when some canonical
   * label contains "date"; a time column on its own adds nothing.
   */
  lemma {:induction false} DatetimeIffDateColumn(raw: Table, p: Parsers)
    requires WellFormed(raw) && AsciiNames(raw.names)
    requires Normalise(raw, p).Ok?
    ensures "datetime" in Normalise(raw, p).value.names
      <==> FirstWith(CanonicalNames(raw.names), "date").Some?
  {
    var t0 := Table(CanonicalNames(raw.names), raw.rows);
    var t1 := AddDatetime(t0, p, FirstWith(t0.names, "date"), FirstWith(t0.names, "time")).value;
    DatetimeStep(t0, p);
    DatetimeLabel();
    LaterStepsKeepOthers(t1, p, "datetime");
    var t2 := RenameCoordinates(t1, FirstWith(t1.names, "lat"), FirstWith(t1.names, "lon"));
    var t3 := FillInjuries(t2, p, NameAt(t2.names, InjuryIndex(t2.names))).value;
    var t4 := RenameFactors(t3, FactorMap(t3.names));
    DropKeepsNames(t4, p);
    assert Normalise(raw, p) == DropMissingCoordinates(t4, p);
  }

  /**
   * What the `datetime` step writes: when the date label is unique, every
   * `datetime` cell is the parse of the row's date text, a space and its time
   * text if a time label was found and is unique, and the parse of the date
   * alone otherwise; a duplicated date label makes the load fail.
   */
  lemma {:induction false} DatetimeValues(t: Table, p: Parsers, dateCol: string, timeCol: Option<string>)
    requires WellFormed(t) && dateCol in t.names
    requires timeCol.Some? ==> timeCol.value in t.names
    ensures Occurrences(t.names, dateCol) > 1 ==>
      AddDatetime(t, p, Some(dateCol), timeCol) == Err(NotASeries(dateCol))
    ensures Occurrences(t.names, dateCol) == 1 ==>
      var r := AddDatetime(t, p, Some(dateCol), timeCol);
      var d := IndexOf(t.names, dateCol);
      && r.Ok? && "datetime" in r.value.names && |r.value.rows| == |t.rows|
      && forall k, j | 0 <= k < |t.rows| && 0 <= j < |r.value.names| && r.value.names[j] == "datetime" ::
        r.value.rows[k][j] ==
          if timeCol.Some? && Occurrences(t.names, timeCol.value) == 1 then
            StampCell(p.stamp(AsText(p, t.rows[k][d]) + " " + AsText(p, t.rows[k][IndexOf(t.names, timeCol.value)])))
          else
            ToDatetime(p, t.rows[k][d])
  {
    var dates := Select(t, dateCol);
    if timeCol.Some? {
      var times := Select(t, timeCol.value);
      assert CombinedStamps(t, p, dateCol, timeCol.value).Ok? <==> dates.Ok? && times.Ok?;
    }
  }

  lemma {:induction false} OccurrencesSnoc(names: seq<string>, x: string, key: string)
    ensures Occurrences(names + [x], key) == Occurrences(names, key) + (if x == key then 1 else 0)
  {
    if names == [] {
      assert names + [x] == [x];
    } else {
      assert (names + [x])[1..] == names[1..] + [x];
      OccurrencesSnoc(names[1..], x, key);
    }
  }

  /**
   * How many columns `datetime` labels after its step: one when no column
   * had that label, otherwise as many as already had it, on either path. So
   * `datetime` is duplicated exactly when it already was.
   */
  lemma {:induction false} DatetimeOccurrences(t: Table, p: Parsers, dateCol: Option<string>, timeCol: Option<string>)
    requires WellFormed(t)
    requires dateCol.Some? ==> dateCol.value in t.names
    requires timeCol.Some? ==> timeCol.value in t.names
    ensures dateCol.None? ==> AddDatetime(t, p, dateCol, timeCol) == Ok(t)
    ensures var r := AddDatetime(t, p, dateCol, timeCol);
      dateCol.Some? && r.Ok? ==>
        Occurrences(r.value.names, "datetime") == if "datetime" in t.names then Occurrences(t.names, "datetime") else 1
  {
    var r := AddDatetime(t, p, dateCol, timeCol);
    if dateCol.Some? && r.Ok? && "datetime" !in t.names {
      assert r.value.names == t.names + ["datetime"];
      OccurrencesSnoc(t.names, "datetime", "datetime");
    }
  }

  // ---------------------------------------------------------------- latitude / longitude

  /**
   * The coordinate renames: the first label containing "lat" becomes
   * `latitude`, the first containing "lon" becomes `longitude` (unless it was
   * already renamed to `latitude`), and every other label stays where it was.
   */
  lemma {:induction false} CoordinateRenames(t: Table)
    requires WellFormed(t)
    ensures var la, lo := FirstWith(t.names, "lat"), FirstWith(t.names, "lon");
      var r := RenameCoordinates(t, la, lo);
      && r.rows == t.rows && |r.names| == |t.names|
      && forall i | 0 <= i < |t.names| ::
        r.names[i] == if la == Some(t.names[i]) then "latitude"
                      else if lo == Some(t.names[i]) then "longitude"
                      else t.names[i]
  {
    var la, lo := FirstWith(t.names, "lat"), FirstWith(t.names, "lon");
    CoordinateSubstrings();
    assert lo.Some? ==> lo.value != "latitude";
  }

  // ---------------------------------------------------------------- injuries

  /** Every cell under `key` is a number. */
  predicate AllNumbers(t: Table, key: string) {
    forall k, j | 0 <= k < |t.rows| && 0 <= j < |t.names| && j < |t.rows[k]| && t.names[j] == key ::
      t.rows[k][j].Num?
  }

  lemma {:induction false} InjuryStepFills(t: Table, p: Parsers)
    requires WellFormed(t)
    requires FillInjuries(t, p, NameAt(t.names, InjuryIndex(t.names))).Ok?
    ensures AllNumbers(FillInjuries(t, p, NameAt(t.names, InjuryIndex(t.names))).value, "injured_persons")
  {
    var inj := NameAt(t.names, InjuryIndex(t.names));
    if inj.None? {
      InjuryLabelSubstrings();
      assert "injured_persons" !in t.names;
    } else {
      var i := InjuryIndex(t.names).value;
      var t1 := RenameTable(t, map[inj.value := "injured_persons"]);
      InjuryValues(t, p);
      var r := FillInjuries(t, p, inj).value;
      forall k, j | 0 <= k < |r.rows| && 0 <= j < |r.names| && r.names[j] == "injured_persons"
        ensures r.rows[k][j].Num?
      {
        UniqueIndex(t1.names, "injured_persons", j);
        UniqueIndex(t1.names, "injured_persons", i);
      }
    }
  }

  /**
   * The injury step cell by cell: without an injury label the table is kept;
   * otherwise the chosen column is renamed `injured_persons`, the step fails
   * when that label then names several columns, and else the chosen column
   * holds each row's coerced count with missing values as 0 while every other
   * cell stays as it was.
   */
  lemma {:induction false} InjuryValues(t: Table, p: Parsers)
    requires WellFormed(t)
    ensures var i := InjuryIndex(t.names);
      i.None? ==> FillInjuries(t, p, NameAt(t.names, i)) == Ok(t)
    ensures var i := InjuryIndex(t.names);
      var r := FillInjuries(t, p, NameAt(t.names, i));
      i.Some? ==>
        var t1 := RenameTable(t, map[t.names[i.value] := "injured_persons"]);
        && t1.names[i.value] == "injured_persons"
        && (Occurrences(t1.names, "injured_persons") > 1 ==> r == Err(NotASeries("injured_persons")))
        && (Occurrences(t1.names, "injured_persons") == 1 ==>
              && r.Ok? && r.value.names == t1.names && |r.value.rows| == |t.rows|
              && forall k, j | 0 <= k < |t.rows| && 0 <= j < |t.names| ::
                   r.value.rows[k][j] == if j == i.value then FillZero(ToNumeric(p, t.rows[k][j])) else t.rows[k][j])
  {
    var i := InjuryIndex(t.names);
    if i.Some? {
      var c := t.names[i.value];
      var t1 := RenameTable(t, map[c := "injured_persons"]);
      assert t1.names[i.value] == "injured_persons";
      if Occurrences(t1.names, "injured_persons") == 1 {
        var counts := Select(t1, "injured_persons").value;
        UniqueIndex(t1.names, "injured_persons", i.value);
        var r := Assign(t1, "injured_persons", FilledColumn(p, counts));
        assert FillInjuries(t, p, Some(c)) == Ok(r);
        forall j | 0 <= j < |t.names| && t1.names[j] == "injured_persons"
          ensures j == i.value
        {
          UniqueIndex(t1.names, "injured_persons", j);
        }
      }
    }
  }

  lemma {:induction false} FactorsKeepNumbers(t: Table)
    requires WellFormed(t) && AllNumbers(t, "injured_persons")
    ensures AllNumbers(RenameFactors(t, FactorMap(t.names)), "injured_persons")
  {
    var m := FactorMap(t.names);
    assert "injured_persons" !in m && forall k | k in m :: m[k] != "injured_persons" by {
      InjuryLabels();
    }
    if m != map[] {
      RenameKeepsNumbers(t, m, "injured_persons");
    }
  }

  /** Renaming that neither moves a label nor targets it keeps its columns as they were. */
  lemma RenameKeepsNumbers(t: Table, m: map<string, string>, x: string)
    requires WellFormed(t) && AllNumbers(t, x)
    requires x !in m && forall k | k in m :: m[k] != x
    ensures AllNumbers(RenameTable(t, m), x)
  {
    var r := RenameTable(t, m);
    forall j | 0 <= j < |r.names| && r.names[j] == x ensures t.names[j] == x {
    }
  }

  lemma {:induction false} DropKeepsNumbers(t: Table, p: Parsers, key: string)
    requires WellFormed(t) && AllNumbers(t, key) && key !in Coordinates
    requires DropMissingCoordinates(t, p).Ok?
    ensures AllNumbers(DropMissingCoordinates(t, p).value, key)
  {
    if "latitude" in t.names && "longitude" in t.names {
      var t1 := DropIncomplete(t, Coordinates);
      forall k, j | 0 <= k < |t1.rows| && 0 <= j < |t1.names| && t1.names[j] == key
        ensures t1.rows[k][j].Num?
      {
        var m :| 0 <= m < |t.rows| && t.rows[m] == t1.rows[k];
      }
      var lats := Select(t1, "latitude").value;
      var t2 := Assign(t1, "latitude", NumericColumn(p, lats));
      AssignKeepsNumbers(t1, "latitude", NumericColumn(p, lats), key);
      var lons := Select(t2, "longitude").value;
      var t3 := Assign(t2, "longitude", NumericColumn(p, lons));
      AssignKeepsNumbers(t2, "longitude", NumericColumn(p, lons), key);
      assert DropMissingCoordinates(t, p) == Ok(t3);
    }
  }

  /** Assigning one label leaves the columns of every other label as they were. */
  lemma AssignKeepsNumbers(t: Table, other: string, values: seq<Cell>, key: string)
    requires WellFormed(t) && |values| == |t.rows| && AllNumbers(t, key) && key != other
    ensures AllNumbers(Assign(t, other, values), key)
  {
  }

  /** The `injured_persons` column of a loaded table never holds a missing value: every cell is a number. */
  lemma {:induction false} InjuriesNeverMissing(raw: Table, p: Parsers)
    requires WellFormed(raw) && AsciiNames(raw.names)
    requires Normalise(raw, p).Ok?
    ensures var t := Normalise(raw, p).value;
      forall k, j | 0 <= k < |t.rows| && 0 <= j < |t.names| && t.names[j] == "injured_persons" ::
        t.rows[k][j].Num?
  {
    var t0 := Table(CanonicalNames(raw.names), raw.rows);
    var t1 := AddDatetime(t0, p, FirstWith(t0.names, "date"), FirstWith(t0.names, "time")).value;
    var t2 := RenameCoordinates(t1, FirstWith(t1.names, "lat"), FirstWith(t1.names, "lon"));
    InjuryStepFills(t2, p);
    var t3 := FillInjuries(t2, p, NameAt(t2.names, InjuryIndex(t2.names))).value;
    FactorsKeepNumbers(t3);
    var t4 := RenameFactors(t3, FactorMap(t3.names));
    assert "injured_persons" !in Coordinates;
    DropKeepsNumbers(t4, p, "injured_persons");
    assert Normalise(raw, p) == DropMissingCoordinates(t4, p);
  }

  // ---------------------------------------------------------------- contributing factors

  /**
   * The factor rename: a label containing "contributing_factor" whose
   * smallest vehicle index is 1 or 2 becomes `contributing_factor_vehicle_1`
   * or `_2`; every other label, vehicles 3 to 5 included, keeps its name.
   */
  lemma {:induction false} FactorRenames(t: Table)
    requires WellFormed(t)
    ensures var r := RenameFactors(t, FactorMap(t.names));
      && r.rows == t.rows && |r.names| == |t.names|
      && forall i | 0 <= i < |t.names| ::
        if IsFactorSource(t.names[i]) then
          r.names[i] == FactorTarget(VehicleIndex(t.names[i]).value) &&
          r.names[i] in {FactorTarget(1), FactorTarget(2)}
        else r.names[i] == t.names[i]
  {
    var m := FactorMap(t.names);
    forall i | 0 <= i < |t.names| && IsFactorSource(t.names[i]) ensures m != map[] {
      assert t.names[i] in m;
    }
  }

  /** Two factor labels of the same vehicle both take its standard name: the table then has two columns with that label. */
  lemma {:induction false} FactorTargetsCollide(t: Table, i: nat, j: nat)
    requires WellFormed(t) && 0 <= i < j < |t.names|
    requires IsFactorSource(t.names[i]) && IsFactorSource(t.names[j])
    requires VehicleIndex(t.names[i]) == VehicleIndex(t.names[j])
    ensures var r := RenameFactors(t, FactorMap(t.names));
      r.names[i] == r.names[j] && Occurrences(r.names, r.names[i]) >= 2
  {
    FactorRenames(t);
    var r := RenameFactors(t, FactorMap(t.names));
    OccurrencesOfTwo(r.names, i, j);
  }

  lemma {:induction false} OccurrencesOfTwo(names: seq<string>, i: nat, j: nat)
    requires 0 <= i < j < |names| && names[i] == names[j]
    ensures Occurrences(names, names[i]) >= 2
  {
    if i > 0 {
      OccurrencesOfTwo(names[1..], i - 1, j - 1);
    } else {
      assert names[1..][j - 1] == names[i];
      assert Occurrences(names[1..], names[i]) >= 1;
    }
  }

  // ---------------------------------------------------------------- the coordinate drop

  /**
   * The coordinate step. Without both `latitude` and `longitude` the table is
   * returned untouched. With both, and each label unique, the rows kept are
   * those with both coordinates present (`KeepComplete`), every other cell is
   * kept as it was, and each coordinate is coerced to a number only after the
   * drop. A duplicated coordinate label makes the load fail.
   */
  lemma {:induction false} CoordinateDrop(t: Table, p: Parsers)
    requires WellFormed(t)
    ensures !("latitude" in t.names && "longitude" in t.names) ==> DropMissingCoordinates(t, p) == Ok(t)
    ensures "latitude" in t.names && "longitude" in t.names ==>
      var r := DropMissingCoordinates(t, p);
      var kept := KeepComplete(t.names, t.rows, Coordinates);
      if Occurrences(t.names, "latitude") == 1 && Occurrences(t.names, "longitude") == 1 then
        && r.Ok? && r.value.names == t.names && |r.value.rows| == |kept|
        && forall k, j | 0 <= k < |kept| && 0 <= j < |t.names| ::
          r.value.rows[k][j] == if t.names[j] in Coordinates then ToNumeric(p, kept[k][j]) else kept[k][j]
      else r.Err?
  {
    if "latitude" in t.names && "longitude" in t.names {
      var t1 := DropIncomplete(t, Coordinates);
      if Occurrences(t.names, "latitude") == 1 {
        var lats := Select(t1, "latitude").value;
        var t2 := Assign(t1, "latitude", NumericColumn(p, lats));
        if Occurrences(t.names, "longitude") == 1 {
          var lons := Select(t2, "longitude").value;
          var t3 := Assign(t2, "longitude", NumericColumn(p, lons));
          assert DropMissingCoordinates(t, p) == Ok(t3);
          forall k, j | 0 <= k < |t1.rows| && 0 <= j < |t.names|
            ensures t3.rows[k][j] == if t.names[j] in Coordinates then ToNumeric(p, t1.rows[k][j]) else t1.rows[k][j]
          {
            if t.names[j] == "latitude" {
              assert IndexOf(t.names, "latitude") == j by {
                UniqueIndex(t.names, "latitude", j);
              }
            } else if t.names[j] == "longitude" {
              assert IndexOf(t.names, "longitude") == j by {
                UniqueIndex(t.names, "longitude", j);
              }
            }
          }
        }
      }
    }
  }

  /** A label that occurs once sits at its first index. */
  lemma {:induction false} UniqueIndex(names: seq<string>, key: string, j: nat)
    requires j < |names| && names[j] == key && Occurrences(names, key) == 1
    ensures IndexOf(names, key) == j
  {
    var i := IndexOf(names, key);
    if i != j {
      assert i < j;
      OccurrencesOfTwo(names, i, j);
    }
  }

  /**
   * Coercion runs after the drop, so a coordinate that is present but not a
   * number survives the drop and comes out missing.
   */
  lemma UnparsableCoordinateKept(p: Parsers)
    requires p.number("n/a").None? && p.number("-73.9") == Some(-73.9)
    ensures var t := Table(["latitude", "longitude"], [[Text("n/a"), Text("-73.9")]]);
      DropMissingCoordinates(t, p) == Ok(Table(t.names, [[Null, Num(-73.9)]]))
  {
    var t := Table(["latitude", "longitude"], [[Text("n/a"), Text("-73.9")]]);
    assert Complete(t.names, t.rows[0], Coordinates);
    assert KeepComplete(t.names, t.rows, Coordinates) == t.rows;
    CoordinateDrop(t, p);
    assert Occurrences(t.names, "latitude") == 1 && Occurrences(t.names, "longitude") == 1;
    var r := DropMissingCoordinates(t, p).value;
    assert ToNumeric(p, Text("n/a")) == Null;
    assert ToNumeric(p, Text("-73.9")) == Num(-73.9);
    assert t.names[0] in Coordinates && t.names[1] in Coordinates;
    assert r.rows[0][0] == Null && r.rows[0][1] == Num(-73.9);
    assert |r.rows| == 1 && |r.rows[0]| == 2;
    assert r.rows[0] == [Null, Num(-73.9)];
    assert r == Table(t.names, [[Null, Num(-73.9)]]);
  }

  // ---------------------------------------------------------------- labels that stay unique

  /**
   * In a loaded table `injured_persons` labels at most one column, and when
   * both coordinates are present each labels exactly one column.
   */
  lemma {:induction false} LoadedLabelsUnique(raw: Table, p: Parsers)
    requires WellFormed(raw) && AsciiNames(raw.names)
    requires Normalise(raw, p).Ok?
    ensures var t := Normalise(raw, p).value;
      && Occurrences(t.names, "injured_persons") <= 1
      && ("latitude" in t.names && "longitude" in t.names ==>
            Occurrences(t.names, "latitude") == 1 && Occurrences(t.names, "longitude") == 1)
  {
    var t0 := Table(CanonicalNames(raw.names), raw.rows);
    var t1 := AddDatetime(t0, p, FirstWith(t0.names, "date"), FirstWith(t0.names, "time")).value;
    var t2 := RenameCoordinates(t1, FirstWith(t1.names, "lat"), FirstWith(t1.names, "lon"));
    var t3 := FillInjuries(t2, p, NameAt(t2.names, InjuryIndex(t2.names))).value;
    InjuryStepUnique(t2, p);
    var t4 := RenameFactors(t3, FactorMap(t3.names));
    FactorsKeepInjuryCount(t3);
    assert Normalise(raw, p) == DropMissingCoordinates(t4, p);
    DropUnique(t4, p);
  }

  lemma FactorsKeepInjuryCount(t: Table)
    requires WellFormed(t)
    ensures Occurrences(RenameFactors(t, FactorMap(t.names)).names, "injured_persons") == Occurrences(t.names, "injured_persons")
  {
    var m := FactorMap(t.names);
    assert "injured_persons" !in m && forall k | k in m :: m[k] != "injured_persons" by {
      InjuryLabels();
    }
    if m != map[] {
      RenameOccurrences(t.names, m, "injured_persons");
    }
  }

  /** A successful coordinate step keeps the labels, and both coordinates are unique when present. */
  lemma DropUnique(t: Table, p: Parsers)
    requires WellFormed(t) && DropMissingCoordinates(t, p).Ok?
    ensures var r := DropMissingCoordinates(t, p).value;
      && r.names == t.names
      && ("latitude" in t.names && "longitude" in t.names ==>
            Occurrences(t.names, "latitude") == 1 && Occurrences(t.names, "longitude") == 1)
  {
    CoordinateDrop(t, p);
  }

  lemma {:induction false} InjuryStepUnique(t: Table, p: Parsers)
    requires WellFormed(t)
    requires FillInjuries(t, p, NameAt(t.names, InjuryIndex(t.names))).Ok?
    ensures Occurrences(FillInjuries(t, p, NameAt(t.names, InjuryIndex(t.names))).value.names, "injured_persons") <= 1
  {
    var inj := NameAt(t.names, InjuryIndex(t.names));
    if inj.None? {
      InjuryLabelSubstrings();
      assert "injured_persons" !in t.names;
    } else {
      var t1 := RenameTable(t, map[inj.value := "injured_persons"]);
      var counts := Select(t1, "injured_persons").value;
      assert FillInjuries(t, p, inj) == Ok(Assign(t1, "injured_persons", FilledColumn(p, counts)));
    }
  }

  /**
   * `datetime` is not kept unique: when the time label is duplicated the
   * combination fails, the date alone is parsed instead, and the assignment
   * fills both columns already labelled `datetime`.
   */
  lemma DuplicateTimeLabelFallsBackToDate(p: Parsers)
    ensures var t := Table(["crash_date", "datetime", "datetime"], [[Text("2021-01-05"), Text("a"), Text("b")]]);
      var r := AddDatetime(t, p, Some("crash_date"), Some("datetime"));
      && r.Ok? && Occurrences(r.value.names, "datetime") == 2
      && r.value.rows[0][1] == ToDatetime(p, Text("2021-01-05"))
      && r.value.rows[0][2] == ToDatetime(p, Text("2021-01-05"))
  {
    var t := Table(["crash_date", "datetime", "datetime"], [[Text("2021-01-05"), Text("a"), Text("b")]]);
    assert Occurrences(t.names, "datetime") == 2;
    assert Occurrences(t.names, "crash_date") == 1;
    DatetimeValues(t, p, "crash_date", Some("datetime"));
  }
}

=== FILE: tables.dfy ===
/**
 * The data frame the loader works on: a header of column labels and a list of
 * rows of cells, with the few pandas operations the loader applies to it.
 */
module Tables {
  import opened Wrappers

  /** A parsed timestamp, reduced to the parts the dashboard reads: its calendar
      day (as a day number) and its hour of day. */
  datatype Stamp = Stamp(day: int, hour: int)

  /** One cell: missing (NaN/NaT), raw text, a number, or a timestamp. */
  datatype Cell = Null | Text(text: string) | Num(num: real) | Time(stamp: Stamp)

  datatype Table = Table(names: seq<string>, rows: seq<seq<Cell>>)

  /** Why loading fails: `data[label]` on a duplicated label is a DataFrame, not a
      Series, and pandas' parsers raise on it. */
  datatype LoadError = NotASeries(column: string)

  /**
   * The pandas conversions the loader calls, taken as given:
   * `number` is `pd.to_numeric(errors='coerce')` on one text value,
   * `stamp` is `pd.to_datetime(errors='coerce')` on one text value,
   * `instant` is `pd.to_datetime(errors='coerce')` on one number (read as
   * nanoseconds since the epoch), and `render` is `astype(str)` on a number
   * or a timestamp.
   */
  datatype Parsers = Parsers(
    number: string -> Option<real>,
    stamp: string -> Option<Stamp>,
    instant: real -> Option<Stamp>,
    render: Cell -> string)

  /** Every row has one cell per column label. */
  predicate WellFormed(t: Table) {
    forall k | 0 <= k < |t.rows| :: |t.rows[k]| == |t.names|
  }

  /** How many columns carry `key` as their label. */
  function Occurrences(names: seq<string>, key: string): (n: nat)
    ensures n == 0 <==> key !in names
  {
    if names == [] then 0
    else (if names[0] == key then 1 else 0) + Occurrences(names[1..], key)
  }

  /** Position of the first column labelled `key`. */
  function IndexOf(names: seq<string>, key: string): (i: nat)
    requires key in names
    ensures i < |names| && names[i] == key
    ensures forall j | 0 <= j < i :: names[j] != key
  {
    if names[0] == key then 0 else 1 + IndexOf(names[1..], key)
  }

  function ColumnAt(t: Table, i: nat): (col: seq<Cell>)
    requires WellFormed(t) && i < |t.names|
    ensures |col| == |t.rows|
  {
    seq(|t.rows|, k requires 0 <= k < |t.rows| => t.rows[k][i])
  }

  /** `data[label]`: the column when the label is unique, a failure when it is duplicated. */
  function Select(t: Table, key: string): (r: Result<seq<Cell>, LoadError>)
    requires WellFormed(t) && key in t.names
    ensures r.Ok? <==> Occurrences(t.names, key) == 1
    ensures r.Err? ==> r.error == NotASeries(key)
    ensures r.Ok? ==> |r.value| == |t.rows|
    ensures r.Ok? ==> forall k | 0 <= k < |t.rows| :: r.value[k] == t.rows[k][IndexOf(t.names, key)]
  {
    if Occurrences(t.names, key) == 1 then Ok(ColumnAt(t, IndexOf(t.names, key)))
    else Err(NotASeries(key))
  }

  /** `data.rename(columns=m)`: every label that is a key of `m` is replaced, all at once. */
  function Rename(names: seq<string>, m: map<string, string>): (r: seq<string>)
    ensures |r| == |names|
    ensures forall i | 0 <= i < |names| && names[i] !in m :: r[i] == names[i]
    ensures forall i | 0 <= i < |names| && names[i] in m :: r[i] == m[names[i]]
    ensures forall x | x in r :: (x in names && x !in m) || x in m.Values
  {
    seq(|names|, i requires 0 <= i < |names| => if names[i] in m then m[names[i]] else names[i])
  }

  function RenameTable(t: Table, m: map<string, string>): (r: Table)
    requires WellFormed(t)
    ensures WellFormed(r) && r.rows == t.rows
  {
    Table(Rename(t.names, m), t.rows)
  }

  /** `data[key] = values`: overwrites every column labelled `key`, or appends one. */
  function Assign(t: Table, key: string, values: seq<Cell>): (r: Table)
    requires WellFormed(t) && |values| == |t.rows|
    ensures WellFormed(r) && |r.rows| == |t.rows|
    ensures r.names == if key in t.names then t.names else t.names + [key]
    ensures forall k, j | 0 <= k < |r.rows| && 0 <= j < |r.names| ::
      r.rows[k][j] == if r.names[j] == key then values[k] else t.rows[k][j]
  {
    if key in t.names then
      Table(t.names, seq(|t.rows|, k requires 0 <= k < |t.rows| =>
        seq(|t.names|, j requires 0 <= j < |t.names| =>
          if t.names[j] == key then values[k] else t.rows[k][j])))
    else
      Table(t.names + [key], seq(|t.rows|, k requires 0 <= k < |t.rows| => t.rows[k] + [values[k]]))
  }

  /** A row has a value in every column whose label is in `subset`. */
  predicate Complete(names: seq<string>, row: seq<Cell>, subset: set<string>) {
    forall j | 0 <= j < |names| && j < |row| && names[j] in subset :: row[j] != Null
  }

  function KeepComplete(names: seq<string>, rows: seq<seq<Cell>>, subset: set<string>): (kept: seq<seq<Cell>>)
    ensures |kept| <= |rows|
    ensures forall k | 0 <= k < |kept| :: kept[k] in rows && Complete(names, kept[k], subset)
  {
    if rows == [] then []
    else if Complete(names, rows[0], subset) then [rows[0]] + KeepComplete(names, rows[1..], subset)
    else KeepComplete(names, rows[1..], subset)
  }

  /** `data.dropna(subset=...)` */
  function DropIncomplete(t: Table, subset: set<string>): (r: Table)
    requires WellFormed(t)
    ensures WellFormed(r) && r.names == t.names
  {
    Table(t.names, KeepComplete(t.names, t.rows, subset))
  }

  /** The drop is an order-preserving filter: it distributes over concatenation. */
  lemma {:induction false} KeepCompleteAppend(names: seq<string>, a: seq<seq<Cell>>, b: seq<seq<Cell>>, subset: set<string>)
    ensures KeepComplete(names, a + b, subset) == KeepComplete(names, a, subset) + KeepComplete(names, b, subset)
  {
    if a == [] {
      assert a + b == b;
    } else {
      assert (a + b)[1..] == a[1..] + b;
      KeepCompleteAppend(names, a[1..], b, subset);
    }
  }

  /** A row survives the drop exactly when it has every value of `subset`. */
  lemma {:induction false} KeepCompleteMember(names: seq<string>, rows: seq<seq<Cell>>, subset: set<string>, row: seq<Cell>)
    ensures row in KeepComplete(names, rows, subset) <==> row in rows && Complete(names, row, subset)
  {
    if rows != [] {
      KeepCompleteMember(names, rows[1..], subset, row);
      assert row in rows <==> row == rows[0] || row in rows[1..];
    }
  }
}

=== FILE: wrappers.dfy ===
/** Optional values and results with an error, as used throughout the model. */
module Wrappers {

  datatype Option<+T> = None | Some(value: T)

  /** A value or the error that stopped its computation; usable with `:-`. */
  datatype Result<+T, +E> = Ok(value: T) | Err(error: E) {

    predicate IsFailure() {
      Err?
    }

    function PropagateFailure<U>(): Result<U, E>
      requires Err?
    {
      Err(error)
    }

    function Extract(): T
      requires Ok?
    {
      value
    }
  }
}
